=== FILE: README.md ===
# typical: a Dafny model of the runtime type-switch dispatcher

`typical` is a Go library for promise-style type switching. A `Value` holds
either a tuple of data or a single error. `S(fns...)` picks the first candidate
function whose parameter list fits the runtime types of the tuple, calls it,
and wraps its results back into a `Value`. In error state the value is matched
against single-parameter handlers that take `error` or an implementer of it.
When nothing fits, the receiver itself comes back, so data and errors flow down
a chain of switches. Two process-wide caches sit under the matcher. `typeMap`
maps a tuple's signature (`typeID`) to its recorded type list. `matchMap` maps
a (signature, handler type) pair to the matcher's decision. Both are
first-write-wins.

The files are two versions of the package. They declare the same names
(`Value`, `Do`, `Data`, `Error`, `match`, `writeSmallest`, `dataToTypeID` and
the caches), so they cannot be built together. One version has the struct
`Value` of value.go, which dispatches through switch.go and the caches of
type_id.go. The other has the `Value` interface of typical.go, implemented by
`dataValue` (data_value.go) and `errorValue` (error_value.go). Helpers also
disagree in signature: value.go calls a three-argument `dataToTypeID`, while
type_id.go defines a two-argument one and switch.go an older one-argument
one. The model follows type_id.go for the struct design and states each
other file's properties against its own version:

- `Types` (types.dfy): an abstract type universe. A type is a concrete named
  type (id, kind, method set), an interface (id, required methods), a slice or
  a function type. `interface{}` requires nothing; `error` requires `Error`.
  Assignability means equal types, or an interface target whose required
  methods the source has. Runtime values (`reflect.Value`) are the zero Value,
  a plain value, or an interface-kind value with its dynamic value inside.
- `Encoding` (encoding.dfy): `writeSmallest` of type_id.go (eight big-endian
  bytes, leading zero bytes stripped) and the older one of switch.go (1, 2, 4
  or 8 bytes).
- `Matching` (matching.dfy): `matchErr` and `match` of match.go over a
  recorded type list, where `None` stands for a slot without a value.
- `TypeIds` (typeids.dfy): the `typeID` variants, `addTypeMap`,
  `getMatchData`, `setMatchMap`, `errToTypeID`, `dataToTypeID`, and the
  cached matcher. It also proves the cache invariant and cache transparency:
  on sound caches, a cached decision always equals the pure matcher's
  decision on the recorded type list.
- `Dispatch` (dispatch.dfy): `callable`, `notNillableOrNotNil` (in `Types`),
  `retDataToValue` as written and corrected, and the older cached `match` and
  `dataToTypeID` of switch.go.
- `Values` (values.dfy): the struct `Value` of value.go with its accessors and
  constructors, `Do`, and `S` running through the caches. A cache-free
  reference dispatcher `PureS` is defined alongside, and `STransparent`
  proves that, on sound caches holding the receiver's own type list, the
  cached switch returns exactly what `PureS` returns.
- `Typical` (typical.dfy): the interface design of typical.go, data_value.go
  and error_value.go. It has a data variant and an error variant, and its `S`
  selects the mode (`matchErr` in error state, `match` otherwise). `SAgrees`
  proves that this design's switch and the struct design's cache-free
  reference `PureS` choose the same handler and build the same value, up to
  reading interface-kind slots through. It carries over to the cached
  `Values.S` only through `STransparent`, on sound caches holding the
  receiver's own type list.
- `Examples` (examples.dfy): the two example programs of the repository
  replayed on the model.

The caches are values passed in and returned. I/O, clocks and randomness play
no part. A handler's body is an uninterpreted function from arguments to
results. All that is known about it is that its results have its declared
result types (`WellBehaved`).

## Model

| member | source | states |
|---|---|---|
| Types.NotNillableOrNotNil | switch.go:128-134 | false exactly for a nil value of chan, func, map, ptr, interface or slice kind |
| Encoding.WriteSmallest | type_id.go:41-51 | 1 to 8 bytes whose big-endian value is p; no leading zero byte unless p = 0, which gives exactly [0]; one byte iff p <= 255; the length is the least byte count holding p |
| Encoding.StripIsShortest | type_id.go:44-50 | stripping leading zeros from any encoding wide enough for p leaves the shortest big-endian encoding of p |
| Encoding.WriteSmallestFixed | switch.go:80-97 | the older encoder emits 1, 2, 4 or 8 bytes, the smallest width whose maximum is at least p, and the bytes read back as p |
| Encoding.EncodersAgree | type_id.go:41-51 | the current and the older encoder denote the same number, and the current one is never longer |
| Encoding.CodesAreNotPrefixFree | type_id.go:113-119 | concatenated codes are ambiguous: the codes of 1 and 2 together equal the code of 0x102 |
| Matching.AnyAcceptsEverySlot | match.go:46 | every slot fits `interface{}`, including a slot without a value |
| Matching.MatchFrom | match.go:37-51 | the loop accepts iff every position from i on fits its parameter (a fixed one, or the variadic element) |
| Matching.Match | match.go:22-52 | non-variadic: true iff the tuple has one slot per parameter and each fits; variadic with k fixed parameters: true iff at least k slots, the fixed ones fit and every trailing one fits the element type |
| Matching.MatchErrExactly | match.go:11-20 | false when the handler does not take exactly one parameter, false when that parameter does not implement `error`, otherwise true iff the error's type is assignable to it |
| Matching.MatchErr | match.go:11-20 | error mode accepts exactly a one-parameter handler whose parameter implements `error` and is assignable from the error's type |
| Matching.ErrorHandlersCatch | match.go:15-19 | a handler taking `error` catches every error type, and one taking the error's own type catches it |
| Matching.ErrorModeStricter | match.go:11-52 | whatever catches an error in error mode would also accept it as a one-slot data tuple |
| Matching.AnyDoesNotCatchErrors | match.go:11-20 | `func(interface{})` takes an error as data but never catches it in error mode |
| Matching.VariadicAnyShortcut | match.go:42-45 | for a `...interface{}` handler the result depends only on the length and the fixed positions |
| Matching.VariadicNeedsNoTrailing | match.go:25-30 | a tuple of exactly the fixed positions can match a variadic handler |
| Matching.EmptyTupleMatches | match.go:22-52 | the empty tuple matches exactly `func()` and variadic handlers without fixed parameters |
| TypeIds.AddTypeMap | type_id.go:53-59 | records the list only under a new key; existing keys keep their lists |
| TypeIds.GetMatchData | type_id.go:61-69 | ok iff the key has a decision, which is returned; otherwise the list recorded for the key's signature, empty when none |
| TypeIds.SetMatchMap | type_id.go:71-78 | stores the decision only under a new key and returns the value passed in |
| TypeIds.ErrToTypeID | type_id.go:80-86 | always an error id (isErr true), of the error's runtime type, with that single type recorded first-write-wins |
| TypeIds.Unwrap | type_id.go:107-112 | an interface-kind slot holding a value is replaced by that value; the recorded type and the presence of a value are unchanged |
| TypeIds.RecordedTypes | type_id.go:104-120 | one recorded type per slot, in order, the dynamic type inside interfaces, none for a slot without a value |
| TypeIds.IsErr | type_id.go:23-39 | true exactly for the error id; the static and data ids report false |
| TypeIds.TypesCode | type_id.go:113-125 | empty exactly for the empty list; each further slot strictly extends the code of the slots before it |
| TypeIds.DataToTypeID | type_id.go:88-129 | never an error id; a recorded static id comes back at once with nothing changed; otherwise a static id iff a handler type is given and no slot is interface-kind, else the data id of the slot codes, with slots unwrapped and the list added first-write-wins |
| TypeIds.TypeCode | type_id.go:113-119 | a slot's code is 1 to 8 bytes reading back as its type's address; a slot without a value codes as exactly [0] |
| TypeIds.TypesCodeLength | type_id.go:113-119 | every slot contributes between one and eight bytes to the data code |
| TypeIds.CachedMatch | type_id.go:61-78 | a stored decision is returned unchanged; otherwise one is computed and stored; no stored decision is ever changed and typeMap is untouched |
| TypeIds.Decide | typical.go:24-29 | in error state exactly the one-parameter handlers taking an `error` implementer assignable from the single recorded type; otherwise `match` on the list; a positive decision in either mode is also a data-mode match |
| TypeIds.NoCachesSound | type_id.go:17-18 | the empty caches satisfy the cache invariant |
| TypeIds.AddTypeMapSound | type_id.go:53-59 | first-write-wins recording of a fitting list keeps the cache invariant |
| TypeIds.StaticResultsRecorded | type_id.go:91-108 | a handler's data results hold no interface-kind slot iff no data result type is an interface, and then they record the handler's declared types |
| TypeIds.ErrToTypeIDSound | type_id.go:80-86 | errToTypeID keeps the invariant and records exactly the error's type |
| TypeIds.DataToTypeIDSound | type_id.go:88-129 | dataToTypeID keeps the invariant, and the list under the returned id is the tuple's own unless an earlier tuple with the same code wrote first |
| TypeIds.CachedMatchTransparent | type_id.go:61-78 | on sound caches the cached decision equals the pure matcher's decision on the recorded list, and the caches stay sound |
| TypeIds.StoredDecisionStable | type_id.go:71-78 | once a decision is stored, later lookups and recordings return it unchanged |
| TypeIds.DataCodesCollide | type_id.go:123-125 | two different type lists can get the same data id |
| Dispatch.Callable | switch.go:12-19 | panics exactly when the argument's kind is not Func, otherwise yields its function type |
| Dispatch.RetDataAsWritten | switch.go:140-149 | as written: panics exactly when the handler declares no results, and otherwise agrees with the corrected reading |
| Dispatch.RetData | switch.go:140-149 | error result iff the last declared result is exactly `error` and the returned error is not nil, holding that error; otherwise data made of the results before a trailing `error`, or all results; no results give empty data |
| Dispatch.NoResultHandlerPanics | switch.go:141-142 | a handler without results makes the as-written code panic, while the corrected reading gives empty data |
| Dispatch.RetDataAgrees | switch.go:140-149 | for handlers with results the as-written and corrected readings coincide |
| Dispatch.ImplementerIsData | switch.go:143-148 | a last result of a type that merely implements `error` is data, never an error |
| Dispatch.OldMatchFromAgrees | switch.go:64-75 | on tuples whose slots all have values, the older loop decides as match.go's loop does |
| Dispatch.OldMatchFrom | switch.go:64-75 | true iff every remaining slot has a value assignable to its parameter; it panics only when some remaining slot has no value |
| Dispatch.OldDecide | switch.go:52-77 | panics only on a tuple with a slot without a value; a positive decision needs the right arity and a value in every slot |
| Dispatch.OldDecideAgrees | switch.go:52-77 | on such tuples the older matcher and `match` give the same decision |
| Dispatch.OldDecideRejectsAbsent | switch.go:71 | the older matcher panics on a slot without a value where `match` treats it as a wildcard for `interface{}` |
| Dispatch.OldMatch | switch.go:25-50 | a stored decision is returned unchanged and every other stored decision is kept; a computed one is stored and equals the older matcher's decision on the recorded list |
| Dispatch.OldStoredDecisionStable | switch.go:25-50 | once a decision is stored, later lookups of other pairs and later recordings of type lists leave it, and the next lookup returns it |
| Dispatch.OldDataToTypeID | switch.go:99-116 | the signature is the slot code string; its type list is written unconditionally, replacing an earlier one; other signatures keep theirs |
| Dispatch.OldCode | switch.go:99-111 | the older code string gives each slot between one and eight bytes |
| Dispatch.OldRecordedTypes | switch.go:100-110 | one type per slot, in order, none for a slot without a value |
| Values.Error | value.go:71-78 | non-nil iff the signature reports isErr, and then it is the single held slot, whose type implements `error` |
| Values.Datum | value.go:40-43 | a slot read as `interface{}` is nil exactly for a nil of a nillable kind |
| Values.FirstErr | value.go:34-44 | (nil, error) in error state; on data it panics iff the tuple is empty, and otherwise gives the first slot, nil for a nil nillable |
| Values.AllErr | value.go:57-69 | (nil, error) in error state; on data a list of the same length and order, nil wherever the slot is a nil nillable |
| Values.First | value.go:23-32 | panics with the error in error state, otherwise equals FirstErr's datum |
| Values.All | value.go:46-55 | panics iff in error state, with the error; otherwise equals AllErr's list |
| Values.NewData | value.go:80-82 | a non-error value with the same number of slots, the same recorded types and the same slots read through interfaces, recorded in the returned caches |
| Values.NewError | value.go:84-87 | an error-state value whose Error() is the given error, under its error id |
| Values.ArgValue | value.go:103-108 | an argument becomes a value; an untyped nil becomes the nil-interface marker, never the zero Value |
| Values.Data | value.go:99-111 | a non-error value with one slot per argument, in order, nils replaced by the nil-interface marker |
| Values.DataAllRoundTrip | value.go:62-68 | AllErr of Data(args) gives the arguments back in order with no error, nils of nillable kinds read as nil |
| Values.ErrorOf | value.go:113-121 | Error() of the result is the given error; a nil error gives exactly Data() |
| Values.ErrorValueAccessors | value.go:35-38 | for a value made from a non-nil error, FirstErr and AllErr give (nil, error) and First and All panic with it |
| Values.NilErrorIsEmptyData | value.go:116-119 | Error(nil) is the empty non-error value: no error, no data, and FirstErr panics on it |
| Values.RetDataToValue | switch.go:140-149 | error state iff the results are an error result, holding that error under the error's id; otherwise data whose slots are the interpreted results, one by one and in order, read through interfaces; the signature is recorded in the returned caches |
| Values.Do | value.go:89-97 | panics iff the argument is not a function or needs arguments; otherwise a well-formed value holding the function's returned error, or else its data slots one by one and in order, read through interfaces, as the corrected `retDataToValue` (see Findings) interprets the results |
| Values.DoWithoutResults | value.go:96 | a niladic function without results gives empty data here, while the as-written `retDataToValue` panics at `Out(-1)` |
| Values.S | switch.go:118-126 | the result is well-formed; with no candidates the receiver comes back with the caches unchanged |
| Values.PureS | switch.go:118-126 | the cache-free dispatcher yields well-formed values |
| Values.SUnfold | switch.go:118-126 | one step: the first function candidate is called iff its decision is a match, otherwise the rest are tried |
| Values.RetDataToValuePure | switch.go:140-149 | on sound caches the wrapped results equal the cache-free value and the caches stay sound |
| Values.STransparent | switch.go:118-126 | on sound caches holding the receiver's own type list, the cached switch returns exactly the cache-free switch's value or panic, and the caches stay sound |
| Values.RetDataToValueRecorded | switch.go:140-149 | the value built from a handler's results is recorded under its signature, up to a data-code collision, and sound caches stay sound |
| Values.SResultRecorded | switch.go:118-126 | a switch's result is recorded in the caches it returns, up to a data-code collision, so a chain of switches stays transparent while no code collides |
| Values.PureSelectsFirst | switch.go:118-126 | the first matching candidate decides the result, whatever later candidates are |
| Values.PureNoMatch | switch.go:126 | when every candidate is a function that does not match, the receiver comes back |
| Values.PureNotAFunction | switch.go:118-120 | a non-function reached before any match panics the switch |
| Values.ErrorStateDecision | match.go:11-20 | an error-state value is caught exactly by a one-parameter handler whose parameter implements `error` and accepts the error's type |
| Values.ErrorOfRecorded | type_id.go:80-86 | a value made from an error is recorded under its signature, and sound caches stay sound |
| Values.DataRecorded | type_id.go:88-129 | a Data value is recorded under its signature unless an earlier tuple with the same code wrote first, and sound caches stay sound |
| Typical.Args | error_value.go:11-17 | an error value is switched as the singleton tuple holding the error, data as itself |
| Typical.Accepts | typical.go:24-29 | an error value is accepted exactly by a one-parameter handler taking an `error` implementer assignable from the error's type, data by `match` on its recorded types; acceptance implies a data-mode match of the arguments |
| Typical.Wrap | typical.go:31-34 | an error result becomes an error value holding it, data results a data value |
| Typical.DoSwitch | typical.go:19-45 | the mode-selecting dispatcher keeps values well-formed |
| Typical.S | data_value.go:11-17 | the receiver comes back unchanged when no candidate accepts |
| Typical.SSelectsFirst | typical.go:19-22 | only the first accepting candidate is called, and its results decide the outcome |
| Typical.DoSwitchSelectsFirst | typical.go:19-22 | the dispatcher's result is made from the first accepting candidate's results |
| Typical.SNoMatch | typical.go:36-38 | when no candidate accepts, data and errors propagate unchanged |
| Typical.SNotAFunction | typical.go:44 | a non-function reached before any accepting candidate panics (weaker than the comment's promise: see Left out) |
| Typical.NonFunctionAfterAcceptNotReached | typical.go:44 | a non-function after an accepting `func(error)` is never reached, so the switch does not panic |
| Typical.ErrorStateAccepts | typical.go:24-29 | in error state exactly the one-parameter handlers taking `error` or an implementer assignable from the error's type accept, and `func(error)` accepts every error |
| Typical.Error | data_value.go:36-38 | nil for data, the held error for an error value |
| Typical.First | data_value.go:19-24 | the error value panics with its error; data panics on an empty tuple or a zero Value, otherwise gives the first slot, nil for a nil nillable |
| Typical.AllFrom | data_value.go:28-32 | the loop succeeds iff no remaining slot is the zero Value, and then reads every slot in order |
| Typical.All | data_value.go:26-34 | the error value panics with its error; data gives a list of the same length and order, nil for nil slots |
| Typical.FirstErr | error_value.go:23-25 | (nil, error) for the error value; for data, First's datum with a nil error |
| Typical.AllErr | typical.go:50-51 | (nil, error) for the error value; for data, All's list with a nil error |
| Typical.ValueOf | typical.go:86 | an untyped nil gives the zero Value, anything else a plain value |
| Typical.Data | typical.go:83-89 | a data value with no error and one slot per argument, in order |
| Typical.DataAllRoundTrip | data_value.go:26-34 | without untyped nils, All of Data(args) gives the arguments back, nils of nillable kinds read as nil |
| Typical.FirstAsWritten | data_value.go:19-24 | as written, First succeeds on data iff the first slot exists, holds a value and is of a nillable kind, and then agrees with the guarded First |
| Typical.AllFromAsWritten | data_value.go:28-32 | as written, the loop succeeds iff every remaining slot holds a value of a nillable kind, and then agrees with the guarded loop |
| Typical.AllAsWritten | data_value.go:26-34 | as written, All succeeds on data iff every slot holds a value of a nillable kind, and then agrees with the guarded All |
| Typical.NonNillableDatumPanics | data_value.go:20 | `Data(1).First()` and `Data(1).All()` panic as written, while the guarded readings give the datum back |
| Typical.UntypedNilUnreadable | typical.go:86 | an untyped nil argument leaves a zero Value that First and All cannot read |
| Typical.ErrorOf | typical.go:94-99 | Error() of the result is the given error; a nil error behaves as Data() |
| Typical.Do | typical.go:73-80 | panics on a non-function and on a function with parameters, otherwise wraps the function's results as read by the corrected `retDataToValue` (see Findings) |
| Typical.DoVariadicDiffers | typical.go:75-77 | a variadic function whose only parameter is its slice is refused here but called by value.go's Do |
| Typical.Abs | value.go:17-21 | a struct value maps to the interface value of the same state, switched with the same arguments |
| Typical.AcceptsAgrees | typical.go:24-29 | the interface design's mode selection equals the struct design's decision on its signature |
| Typical.WrapAgrees | switch.go:140-149 | both designs wrap a handler's results into the same value, up to reading interface slots through |
| Typical.SAgrees | typical.go:19-45 | this design's switch and the struct design's cache-free `PureS` choose the same candidate, build the same value up to reading interface slots through, and panic alike; the cached `Values.S` agrees only via `Values.STransparent`, on sound caches holding the receiver's own type list |
| Examples.Selected | switch.go:118-126 | the selected position is a matching candidate with no matching candidate before it; none iff nothing matches |
| Examples.SelectedAt | switch.go:118-126 | the first deciding position is the selected one |
| Examples.HandleSelections | errorhandling_example_test.go:51-63 | an int selects `func(int)`, a generic error `func(error)`, empty data `func()`, the special error `func(*mySpecialError)`, a string `func(interface{})` |
| Examples.HandleGenericError | errorhandling_example_test.go:31-33 | a generic error ends in `func(error)`, whose missing results read as empty data but make the as-written code panic |
| Examples.SumTwoInts | patternmatch_example_test.go:47 | two ints select the adder |
| Examples.SumIntPointer | patternmatch_example_test.go:51 | a `*int` selects the pointer handler |
| Examples.SumStringError | patternmatch_example_test.go:57 | a string and an error select the string-error handler |
| Examples.SumStrings | patternmatch_example_test.go:55 | three strings select the variadic string handler |
| Examples.SumMixedNumbers | patternmatch_example_test.go:59 | a float and an int reach the pair of `interface{}` |
| Examples.SumUntypedNil | patternmatch_example_test.go:62 | an untyped nil reaches only the catch-all |
| Examples.SumNilFloatPointer | patternmatch_example_test.go:63 | a nil `*float64` reaches only the catch-all |
| Examples.SumNothing | patternmatch_example_test.go:64 | the empty tuple reaches only the catch-all |

## Left out

- Calling handlers through `reflect.Value.Call`: a handler's body is an uninterpreted function. Panics inside handlers, and `Call`'s own argument-type panics, are not modelled.
- common_functions.go, the registry of common function shapes: it only speeds up calls and does not change behaviour.
- The `sync.RWMutex` locking of the caches (type_id.go:10, switch.go:21): the caches are sequential values threaded through each operation.
- Real type descriptor addresses: a type carries an abstract `id`, which is only fed to the encoders. Signatures and match keys hold the type itself.
- Go's full assignability rules (named versus unnamed types, channel directions, conversions): assignability is equality or a method-set subset.
- Injectivity of data codes is not claimed. `TypeIds.DataCodesCollide` shows two type lists with the same code. Transparency is therefore stated for caches that hold the receiver's own list.
- TypeIds.DataToTypeIDSound: the recorded list is the tuple's own only when no earlier tuple with the same code wrote first, because the codes collide.
- Typical.First: uses the guarded nil check of switch.go:128-134 in place of data_value.go:20's unguarded `IsNil`, which panics on a first datum of a non-nillable kind (see Findings; `Typical.FirstAsWritten` is the code as written).
- Typical.AllFrom: uses the guarded nil check in place of data_value.go:29's unguarded `IsNil`, which panics on any slot of a non-nillable kind (`Typical.AllFromAsWritten` is the code as written).
- Typical.All: built on the guarded `Typical.AllFrom`, so `Data(1).All()` gives `[1]` where the code as written panics (`Typical.AllAsWritten`).
- Typical.DataAllRoundTrip: holds for the guarded `All` only; as written, the round trip panics on any argument of a non-nillable kind.
- value.go calls a three-argument `dataToTypeID` whose definition is not modelled; the struct design uses type_id.go's `errToTypeID` and two-argument `dataToTypeID` instead.
- `newValue` is called at switch.go:144-148, but its definition is not modelled. Its error branch is modelled as `newError` of the error read through the interface-kind result (`Elem()`), so the error id records the error's dynamic type, e.g. `*mySpecialError`, rather than `error`. Without `Elem()`, `func(*mySpecialError)` could never catch the special error of errorhandling_example_test.go:55,62. Its data branch is modelled as `newData` with the handler's type.
- `doSwitch` is called at data_value.go:12 and error_value.go:12, but its definition is not modelled. `Typical.DoSwitch` selects the mode as typical.go:24-29 describes and uses no caches.
- Typical.SNotAFunction: typical.go:44 promises a panic whenever any candidate is not a function, but the model checks candidates lazily, as the loop of switch.go:118-126 does, because `doSwitch` is not modelled. A non-function after the first accepting candidate is never reached (`Typical.NonFunctionAfterAcceptNotReached`); `Values.PureNotAFunction` states the same lazy behaviour for the struct design.
- Every dispatcher that wraps handler results (`Values.RetDataToValue`, `Values.Do`, `Values.S`, `Typical.DoSwitch`, `Typical.Do`) uses the corrected `Dispatch.RetData` of the Findings table. On a handler without results each of them gives empty data where the code as written panics at `Out(-1)`.
- Well-formedness of runtime types is not enforced: a `Dyn`'s type is meant to be a non-interface type, and type ids are meant to be distinct as descriptor addresses are, but neither is required by the constructors. No contract depends on either; distinct ids would only matter for code injectivity, which is not claimed.
- data_value.go defines no `FirstErr` or `AllErr`, and error_value.go no `AllErr`. The model takes them from the interface comments of typical.go:47-51.
- In `match.go` the matcher reads `data[i].Type()`. The model gives it the recorded type list instead, as the cached path does (type_id.go:61-69), with none for a slot without a value.
- JSON encoding, `fmt` output and the benchmarks (json_example_test.go, typical_test.go, bench_test.go): they are I/O and library wrappers.

## Findings

| source | as written | input that shows it | evidently intended | confidence | as-written member | corrected member |
|---|---|---|---|---|---|---|
| data_value.go:19-32 | `IsNil` is called (lines 20 and 29) on every datum without a kind guard, so `First` and `All` panic on a datum of a non-nillable kind | `Data(1).First()` or `Data(1).All()` | a non-nillable datum is returned as it is, since typical.go:53-61 documents a panic only in error state | not executed | Typical.FirstAsWritten and Typical.AllAsWritten (exhibited by Typical.NonNillableDatumPanics) | Typical.First and Typical.All |
| switch.go:140-149 | `lastIdx := fnTyp.NumOut() - 1` is -1 for a handler without results, so `fnTyp.Out(-1)` panics | any switch that selects a handler with no results, e.g. `func(i int)` in errorhandling_example_test.go:16 | a handler without results yields empty data, which the example's printed output relies on | not executed | Dispatch.RetDataAsWritten (exhibited by Dispatch.NoResultHandlerPanics and Values.DoWithoutResults) | Dispatch.RetData, used by Values.RetDataToValue, Values.Do, Values.S, Typical.DoSwitch and Typical.Do |

=== FILE: common.dfy ===
/** Small shared vocabulary: optional values and machine-sized naturals. */
module Common {

  datatype Option<+T> = None | Some(value: T)

  /** One byte, as written into a `bytes.Buffer`. */
  type byte = x: nat | x < 256

  /** A `uintptr`: the address of a runtime type descriptor, 64 bits wide. */
  type uintptr = x: nat | x < 0x1_0000_0000_0000_0000
}

=== FILE: dispatch.dfy ===
/** The handler side of switch.go: candidate handlers and `callable`, the
    interpretation of a handler's results (`retDataToValue`), and the older
    cached matcher and signature builder that type_id.go and match.go replaced. */
module Dispatch {
  import opened Common
  import opened Types
  import opened Encoding
  import opened Matching

  /** A candidate passed to `S`: the dynamic type of the argument and, for a
      function, what calling it returns. The body is opaque; only its result
      shape is known. */
  datatype Handler = Handler(ty: Ty, call: seq<RVal> -> seq<RVal>)

  /** A function-typed candidate whose calls return values of its declared
      result types, as `reflect.Value.Call` guarantees. */
  ghost predicate WellBehaved(h: Handler) {
    h.ty.FuncTy? ==> WfFunc(h.ty) && forall args :: Conforms(h.ty.outs, h.call(args))
  }

  /** `callable` (switch.go:12-19): the handler's function type, or a panic
      when the argument's kind is not Func. */
  function Callable(h: Handler): (r: Outcome<Ty>)
    ensures r.Fail? <==> KindOfTy(h.ty) != Func
    ensures r.Fail? ==> r.panic == NotAFunction
    ensures r.Ok? ==> r.value == h.ty && r.value.FuncTy?
  {
    if KindOfTy(h.ty) != Func then Fail(NotAFunction) else Ok(h.ty)
  }

  /** How a handler's results are to be wrapped: as a value in error state
      holding the returned error, or as data. */
  datatype Ret = ErrorResult(err: Dyn) | DataResult(slots: seq<RVal>)

  /** `retDataToValue` (switch.go:140-149) as written: `fnTyp.Out(lastIdx)` is
      evaluated with lastIdx = -1 for a handler without results, which panics. */
  function RetDataAsWritten(fnT: Ty, data: seq<RVal>): (r: Outcome<Ret>)
    requires fnT.FuncTy? && Conforms(fnT.outs, data)
    ensures r.Fail? <==> |fnT.outs| == 0
    ensures r.Ok? ==> r.value == RetData(fnT, data)
  {
    if |fnT.outs| == 0 then Fail(IndexOutOfRange)
    else
      var lastIdx := |fnT.outs| - 1;
      if fnT.outs[lastIdx] == ErrorTy then
        if NotNillableOrNotNil(data[lastIdx]) then Ok(ErrorResult(data[lastIdx].inner.value))
        else Ok(DataResult(data[..lastIdx]))
      else Ok(DataResult(data))
  }

  /** `retDataToValue` with the empty result list read as "no data": a result
      is in error state exactly when the last declared result is exactly
      `error` and the returned error is not nil, and then holds that error
      alone; otherwise every result but a trailing `error` becomes data. */
  function RetData(fnT: Ty, data: seq<RVal>): (r: Ret)
    requires fnT.FuncTy? && Conforms(fnT.outs, data)
    ensures r.ErrorResult? <==> ReturnsError(fnT) && data[|data| - 1].inner.Some?
    ensures r.ErrorResult? ==> r.err == data[|data| - 1].inner.value && IsErrorType(r.err.ty)
    ensures r.DataResult? ==> r.slots == (if ReturnsError(fnT) then data[..|data| - 1] else data)
    ensures r.DataResult? ==> Conforms(DataOuts(fnT), r.slots)
    ensures |fnT.outs| == 0 ==> r == DataResult([])
  {
    if |fnT.outs| == 0 then DataResult(data)
    else
      var lastIdx := |fnT.outs| - 1;
      if fnT.outs[lastIdx] == ErrorTy then
        assert SlotConforms(ErrorTy, data[lastIdx]);
        if NotNillableOrNotNil(data[lastIdx]) then ErrorResult(data[lastIdx].inner.value)
        else DataResult(data[..lastIdx])
      else DataResult(data)
  }

  /** The handler `func(int)` of the error-handling example returns nothing:
      as written its results cannot be interpreted, while the corrected
      reading gives empty data. */
  lemma NoResultHandlerPanics(fnT: Ty)
    requires fnT.FuncTy? && fnT.outs == []
    ensures RetDataAsWritten(fnT, []) == Fail(IndexOutOfRange)
    ensures RetData(fnT, []) == DataResult([])
  {
  }

  /** The two readings agree on every handler that declares results. */
  lemma RetDataAgrees(fnT: Ty, data: seq<RVal>)
    requires fnT.FuncTy? && Conforms(fnT.outs, data) && |fnT.outs| > 0
    ensures RetDataAsWritten(fnT, data) == Ok(RetData(fnT, data))
  {
  }

  /** A result whose last declared type merely implements `error` is data,
      even when that result is a non-nil error. */
  lemma ImplementerIsData(fnT: Ty, data: seq<RVal>)
    requires fnT.FuncTy? && Conforms(fnT.outs, data) && |fnT.outs| > 0
    requires fnT.outs[|fnT.outs| - 1] != ErrorTy
    ensures RetData(fnT, data) == DataResult(data)
  {
  }

  // ---------------------------------------------------------------------
  // The older cache of switch.go: signatures are byte strings, decisions are
  // kept per signature in a map from handler type.

  datatype OldCaches = OldCaches(matchMap: map<seq<byte>, map<Ty, bool>>, typeMap: map<seq<byte>, seq<Option<Ty>>>)

  /** The loop of switch.go:64-75 from position i on. A position passes when
      the types are equal or assignable; an absent slot calls `AssignableTo`
      on a nil type, which panics. */
  function OldMatchFrom(fixed: seq<Ty>, vt: Option<Ty>, ts: seq<Option<Ty>>, i: nat): (r: Outcome<bool>)
    requires i <= |ts|
    requires vt.None? ==> |ts| <= |fixed|
    ensures r.Fail? ==> r.panic == NilType && exists j :: i <= j < |ts| && ts[j].None?
    ensures r == Ok(true) <==>
      forall j :: i <= j < |ts| ==> ts[j].Some? && AssignableTo(ts[j].value, ParamAt(fixed, vt, j))
    decreases |ts| - i
  {
    if i == |ts| then Ok(true)
    else
      var inT := ParamAt(fixed, vt, i);
      if ts[i] == Some(inT) then OldMatchFrom(fixed, vt, ts, i + 1)
      else if ts[i].None? then Fail(NilType)
      else if AssignableTo(ts[i].value, inT) then OldMatchFrom(fixed, vt, ts, i + 1)
      else Ok(false)
  }

  /** The structural part of the older `match` (switch.go:52-77). */
  function OldDecide(fnT: Ty, ts: seq<Option<Ty>>): (r: Outcome<bool>)
    requires WfFunc(fnT)
    ensures r.Fail? ==> r.panic == NilType && exists j :: 0 <= j < |ts| && ts[j].None?
    ensures r == Ok(true) ==>
      && (if fnT.variadic then |fnT.ins| - 1 <= |ts| else |ts| == |fnT.ins|)
      && forall j :: 0 <= j < |ts| ==> ts[j].Some?
  {
    var numIn := |fnT.ins|;
    if fnT.variadic then
      if numIn - 1 > |ts| then Ok(false)
      else OldMatchFrom(FixedParams(fnT), Some(VariadicElem(fnT)), ts, 0)
    else if |ts| != numIn then Ok(false)
    else OldMatchFrom(fnT.ins, None, ts, 0)
  }

  /** No recorded slot is absent. */
  predicate AllPresent(ts: seq<Option<Ty>>) {
    forall i :: 0 <= i < |ts| ==> ts[i].Some?
  }

  lemma {:induction false} OldMatchFromAgrees(fixed: seq<Ty>, vt: Option<Ty>, ts: seq<Option<Ty>>, i: nat)
    requires i <= |ts|
    requires vt.None? ==> |ts| <= |fixed|
    requires AllPresent(ts)
    ensures OldMatchFrom(fixed, vt, ts, i) == Ok(MatchFrom(fixed, vt, ts, i))
    decreases |ts| - i
  {
    if i < |ts| {
      OldMatchFromAgrees(fixed, vt, ts, i + 1);
      if i >= |fixed| && vt.value == AnyTy {
        AssignableToAny(ts[i].value);
        AnyAcceptsEverySlot(ts[i]);
      }
    }
  }

  /** On tuples without absent slots the older matcher decides as `match`
      does; the `...interface{}` shortcut and the nil wildcard are the only
      additions of match.go. */
  lemma OldDecideAgrees(fnT: Ty, ts: seq<Option<Ty>>)
    requires WfFunc(fnT) && AllPresent(ts)
    ensures OldDecide(fnT, ts) == Ok(Match(fnT, ts))
  {
    var numIn := |fnT.ins|;
    if fnT.variadic {
      if numIn - 1 <= |ts| {
        OldMatchFromAgrees(FixedParams(fnT), Some(VariadicElem(fnT)), ts, 0);
      }
    } else if |ts| == numIn {
      OldMatchFromAgrees(fnT.ins, None, ts, 0);
    }
  }

  /** The older matcher panics where `match` reads an absent slot as a
      wildcard for `interface{}`. */
  lemma OldDecideRejectsAbsent(fnT: Ty)
    requires WfFunc(fnT) && fnT.ins == [AnyTy] && !fnT.variadic
    ensures OldDecide(fnT, [None]) == Fail(NilType)
    ensures Match(fnT, [None])
  {
  }

  /** The older cached `match` (switch.go:25-78): a stored decision for the
      pair is returned unchanged; otherwise the decision is computed from the
      type list recorded for the signature and stored. */
  function OldMatch(c: OldCaches, typeID: seq<byte>, fnT: Ty): (r: Outcome<(bool, OldCaches)>)
    requires WfFunc(fnT)
    ensures typeID in c.matchMap && fnT in c.matchMap[typeID] ==>
      r == Ok((c.matchMap[typeID][fnT], c))
    ensures r.Ok? ==>
      && r.value.1.typeMap == c.typeMap
      && typeID in r.value.1.matchMap && fnT in r.value.1.matchMap[typeID]
      && r.value.1.matchMap[typeID][fnT] == r.value.0
    ensures r.Ok? && !(typeID in c.matchMap && fnT in c.matchMap[typeID]) ==>
      OldDecide(fnT, if typeID in c.typeMap then c.typeMap[typeID] else []) == Ok(r.value.0)
    ensures r.Ok? ==> forall t, f :: t in c.matchMap && f in c.matchMap[t] ==>
      t in r.value.1.matchMap && f in r.value.1.matchMap[t] && r.value.1.matchMap[t][f] == c.matchMap[t][f]
  {
    if typeID in c.matchMap && fnT in c.matchMap[typeID] then Ok((c.matchMap[typeID][fnT], c))
    else
      var types := if typeID in c.typeMap then c.typeMap[typeID] else [];
      match OldDecide(fnT, types)
      case Fail(p) => Fail(p)
      case Ok(m) =>
        var inner := if typeID in c.matchMap then c.matchMap[typeID][fnT := m] else map[fnT := m];
        Ok((m, c.(matchMap := c.matchMap[typeID := inner])))
  }

  /** Once a decision for a (signature, handler type) pair is stored in the
      older cache, later lookups of other pairs and later recordings of type
      lists leave it in place, and the next lookup of the pair returns it. */
  lemma OldStoredDecisionStable(c: OldCaches, typeID: seq<byte>, fnT: Ty, other: seq<byte>, g: Ty, data: seq<RVal>)
    requires WfFunc(fnT) && WfFunc(g)
    requires typeID in c.matchMap && fnT in c.matchMap[typeID]
    requires OldMatch(c, other, g).Ok?
    ensures var c1 := OldMatch(c, other, g).value.1;
      var c2 := OldDataToTypeID(data, c1).1;
      OldMatch(c2, typeID, fnT) == Ok((c.matchMap[typeID][fnT], c2))
  {
  }

  /** The type the older builder records for a slot: `d.Type()` without
      looking inside interfaces; `None` for the zero Value. */
  function OldSlotType(d: RVal): Option<Ty> {
    if d.Zero? then None else Some(TypeOf(d))
  }

  /** The older slot codes, concatenated. */
  function OldCode(data: seq<RVal>): (r: seq<byte>)
    ensures |data| <= |r| <= 8 * |data|
  {
    if |data| == 0 then []
    else
      var t := OldSlotType(data[|data| - 1]);
      OldCode(data[..|data| - 1]) + WriteSmallestFixed(if t.Some? then t.value.id else 0)
  }

  /** The older `dataToTypeID` (switch.go:99-116): the signature is the code
      string, and its type list is written unconditionally, replacing any
      earlier list. */
  function OldDataToTypeID(data: seq<RVal>, c: OldCaches): (r: (seq<byte>, OldCaches))
    ensures r.0 == OldCode(data)
    ensures r.1.matchMap == c.matchMap
    ensures r.0 in r.1.typeMap && |r.1.typeMap[r.0]| == |data|
    ensures forall i :: 0 <= i < |data| ==> r.1.typeMap[r.0][i] == OldSlotType(data[i])
    ensures forall k :: k in c.typeMap && k != r.0 ==> k in r.1.typeMap && r.1.typeMap[k] == c.typeMap[k]
  {
    var code := OldCode(data);
    (code, c.(typeMap := c.typeMap[code := OldRecordedTypes(data)]))
  }

  /** The type list the older builder records: one type per slot, in order. */
  function OldRecordedTypes(data: seq<RVal>): (ts: seq<Option<Ty>>)
    ensures |ts| == |data|
    ensures forall i :: 0 <= i < |data| ==> ts[i] == OldSlotType(data[i])
  {
    seq(|data|, i requires 0 <= i < |data| => OldSlotType(data[i]))
  }
}

=== FILE: encoding.dfy ===
/** The byte encoders that turn a type descriptor address into the bytes of a
    data signature: the current `writeSmallest` of type_id.go (eight big-endian
    bytes with leading zero bytes stripped) and the older one of switch.go
    (1, 2, 4 or 8 big-endian bytes). */
module Encoding {
  import opened Common

  function Pow256(n: nat): (r: nat)
    ensures r >= 1
  {
    if n == 0 then 1 else 256 * Pow256(n - 1)
  }

  /** `binary.BigEndian.PutUintN` for N = 8 * n: the n low-order bytes of p,
      most significant first. */
  function BigEndian(p: nat, n: nat): (r: seq<byte>)
    ensures |r| == n
  {
    if n == 0 then [] else BigEndian(p / 256, n - 1) + [p % 256]
  }

  /** The number a big-endian byte string denotes. */
  function BEValue(bs: seq<byte>): nat {
    if |bs| == 0 then 0 else BEValue(bs[..|bs| - 1]) * 256 + bs[|bs| - 1]
  }

  /** The number of bytes p needs, at least one. */
  function ByteLen(p: nat): (n: nat)
    ensures n >= 1
  {
    if p < 256 then 1 else 1 + ByteLen(p / 256)
  }

  lemma {:induction false} Pow256Monotonic(a: nat, b: nat)
    requires a <= b
    ensures Pow256(a) <= Pow256(b)
  {
    if a < b {
      Pow256Monotonic(a, b - 1);
    }
  }

  lemma Pow256Eight()
    ensures Pow256(1) == 0x100
    ensures Pow256(2) == 0x1_0000
    ensures Pow256(4) == 0x1_0000_0000
    ensures Pow256(8) == 0x1_0000_0000_0000_0000
  {
    assert Pow256(3) == 0x100_0000;
    assert Pow256(5) == 0x100_0000_0000;
    assert Pow256(6) == 0x1_0000_0000_0000;
    assert Pow256(7) == 0x100_0000_0000_0000;
  }

  /** Reading back n big-endian bytes of p gives p when p fits in n bytes. */
  lemma {:induction false} BigEndianValue(p: nat, n: nat)
    requires p < Pow256(n)
    ensures BEValue(BigEndian(p, n)) == p
  {
    if n > 0 {
      assert p / 256 < Pow256(n - 1);
      BigEndianValue(p / 256, n - 1);
      var b := BigEndian(p, n);
      assert b[..n - 1] == BigEndian(p / 256, n - 1);
    }
  }

  /** ByteLen(p) is the least byte count that holds p. */
  lemma {:induction false} ByteLenBounds(p: nat)
    ensures p < Pow256(ByteLen(p))
    ensures ByteLen(p) > 1 ==> Pow256(ByteLen(p) - 1) <= p
  {
    if p >= 256 {
      ByteLenBounds(p / 256);
    }
  }

  /** p fits in n bytes exactly when ByteLen(p) <= n. */
  lemma ByteLenAtMost(p: nat, n: nat)
    requires n >= 1
    ensures ByteLen(p) <= n <==> p < Pow256(n)
  {
    ByteLenBounds(p);
    if ByteLen(p) <= n {
      Pow256Monotonic(ByteLen(p), n);
    } else {
      Pow256Monotonic(n, ByteLen(p) - 1);
    }
  }

  /** Widening an encoding of a value that already fits adds one zero byte in front. */
  lemma {:induction false} LeadingZero(p: nat, n: nat)
    requires p < Pow256(n)
    ensures BigEndian(p, n + 1) == [0] + BigEndian(p, n)
  {
    if n > 0 {
      assert p / 256 < Pow256(n - 1);
      LeadingZero(p / 256, n - 1);
    }
  }

  /** The shortest encoding of a positive value starts with a non-zero byte. */
  lemma {:induction false} ShortestLeads(p: nat)
    ensures p > 0 ==> BigEndian(p, ByteLen(p))[0] != 0
  {
    if p >= 256 {
      ShortestLeads(p / 256);
      assert BigEndian(p, ByteLen(p))[0] == BigEndian(p / 256, ByteLen(p / 256))[0];
    }
  }

  /** The loop of type_id.go `writeSmallest`: skip leading zero bytes, but
      always keep the last byte. */
  function StripLeadingZeros(b: seq<byte>): (r: seq<byte>)
    requires |b| >= 1
    ensures 1 <= |r| <= |b| && r == b[|b| - |r|..]
  {
    if |b| > 1 && b[0] == 0 then StripLeadingZeros(b[1..]) else b
  }

  /** Stripping an n-byte encoding leaves exactly the shortest one. */
  lemma {:induction false} StripIsShortest(p: nat, n: nat)
    requires ByteLen(p) <= n
    ensures StripLeadingZeros(BigEndian(p, n)) == BigEndian(p, ByteLen(p))
    decreases n
  {
    var b := BigEndian(p, n);
    if n == ByteLen(p) {
      ShortestLeads(p);
    } else {
      ByteLenAtMost(p, n - 1);
      LeadingZero(p, n - 1);
      assert b[1..] == BigEndian(p, n - 1);
      StripIsShortest(p, n - 1);
    }
  }

  /** What stripping the eight-byte encoding of a pointer leaves. */
  lemma {:induction false} StripEight(p: uintptr)
    ensures StripLeadingZeros(BigEndian(p, 8)) == BigEndian(p, ByteLen(p))
    ensures 1 <= ByteLen(p) <= 8
    ensures p <= 255 <==> ByteLen(p) == 1
  {
    Pow256Eight();
    ByteLenAtMost(p, 8);
    ByteLenAtMost(p, 1);
    StripIsShortest(p, 8);
  }

  /** The shortest encoding reads back as the number and leads with a
      non-zero byte unless the number is 0. */
  lemma ShortestFacts(p: nat)
    ensures BEValue(BigEndian(p, ByteLen(p))) == p
    ensures p > 0 ==> BigEndian(p, ByteLen(p))[0] != 0
    ensures p == 0 ==> BigEndian(p, ByteLen(p)) == [0]
  {
    ByteLenBounds(p);
    BigEndianValue(p, ByteLen(p));
    ShortestLeads(p);
  }

  /** `writeSmallest` of type_id.go: the big-endian bytes of p without leading
      zero bytes, one zero byte for p = 0. */
  function WriteSmallest(p: uintptr): (r: seq<byte>)
    ensures 1 <= |r| <= 8
    ensures BEValue(r) == p
    ensures |r| == ByteLen(p) && r == BigEndian(p, ByteLen(p))
    ensures p > 0 ==> r[0] != 0
    ensures p == 0 ==> r == [0]
    ensures p <= 255 <==> |r| == 1
  {
    StripEight(p);
    ShortestFacts(p);
    StripLeadingZeros(BigEndian(p, 8))
  }

  /** `writeSmallest` of switch.go: the smallest of the widths 1, 2, 4 and 8
      bytes whose maximum is at least p, big-endian. */
  function WriteSmallestFixed(p: uintptr): (r: seq<byte>)
    ensures |r| == 1 || |r| == 2 || |r| == 4 || |r| == 8
    ensures BEValue(r) == p
    ensures ByteLen(p) <= |r|
    ensures |r| > 1 ==> p > 0xFF
    ensures |r| > 2 ==> p > 0xFFFF
    ensures |r| > 4 ==> p > 0xFFFF_FFFF
  {
    Pow256Eight();
    var w := if p <= 0xFF then 1 else if p <= 0xFFFF then 2 else if p <= 0xFFFF_FFFF then 4 else 8;
    BigEndianValue(p, w);
    ByteLenAtMost(p, w);
    BigEndian(p, w)
  }

  /** The two encoders denote the same number, and the current one is never
      longer than the old one. */
  lemma EncodersAgree(p: uintptr)
    ensures BEValue(WriteSmallest(p)) == BEValue(WriteSmallestFixed(p))
    ensures |WriteSmallest(p)| <= |WriteSmallestFixed(p)|
  {
  }

  /** Variable-width codes have no delimiters: two descriptor addresses can
      write the same bytes as one. */
  lemma CodesAreNotPrefixFree()
    ensures WriteSmallest(1) + WriteSmallest(2) == WriteSmallest(0x102)
  {
    assert BigEndian(1, 1) == [1];
    assert BigEndian(2, 1) == [2];
    assert BigEndian(0x102, 2) == BigEndian(1, 1) + [2];
    assert ByteLen(0x102) == 2;
    assert WriteSmallest(1) == [1];
    assert WriteSmallest(2) == [2];
  }
}

=== FILE: examples.dfy ===
/** The two example programs of the repository, errorhandling_example_test.go
    and patternmatch_example_test.go, replayed on the model: which candidate
    each input selects, and what the switch then returns. */
module Examples {
  import opened Common
  import opened Types
  import opened Matching
  import opened TypeIds
  import opened Dispatch
  import Typical
  import Values

  const IntTy: Ty := Named(10, Int, {})
  const Float64Ty: Ty := Named(11, Float64, {})
  const StringTy: Ty := Named(12, String, {})
  const IntPtrTy: Ty := Named(13, Ptr, {})
  const Float64PtrTy: Ty := Named(14, Ptr, {})
  const MapTy: Ty := Named(15, Map, {})
  const StringSliceTy: Ty := SliceOf(16, StringTy)
  const AnySliceTy: Ty := SliceOf(17, AnyTy)
  /** `*mySpecialError`, whose method set holds `Error`. */
  const SpecialErrTy: Ty := Named(20, Ptr, {"Error"})
  /** The error type `fmt.Errorf` returns. */
  const GenericErrTy: Ty := Named(21, Ptr, {"Error"})

  /** The position of the first candidate type the pure dispatcher selects
      for a signature and its type list, if any. */
  function Selected(id: TypeID, ts: seq<Option<Ty>>, fns: seq<Ty>): (r: Option<nat>)
    requires forall j :: 0 <= j < |fns| ==> WfFunc(fns[j])
    ensures r.Some? ==> r.value < |fns| && Decide(id, fns[r.value], ts)
    ensures r.Some? ==> forall j :: 0 <= j < r.value ==> !Decide(id, fns[j], ts)
    ensures r.None? ==> forall j :: 0 <= j < |fns| ==> !Decide(id, fns[j], ts)
    decreases |fns|
  {
    if |fns| == 0 then None
    else if Decide(id, fns[0], ts) then Some(0)
    else
      var rest := Selected(id, ts, fns[1..]);
      if rest.Some? then Some(rest.value + 1) else None
  }

  /** The consumers of `handle` (errorhandling_example_test.go:15-34):
      `func(int)`, `func(interface{})`, `func()`, `func(*mySpecialError)`,
      `func(error)`; none returns anything. */
  const HandleFns: seq<Ty> := [
    FuncTy(30, [IntTy], false, []),
    FuncTy(31, [AnyTy], false, []),
    FuncTy(32, [], false, []),
    FuncTy(33, [SpecialErrTy], false, []),
    FuncTy(34, [ErrorTy], false, [])
  ]

  lemma HandleFnsWf()
    ensures forall j :: 0 <= j < |HandleFns| ==> WfFunc(HandleFns[j])
  {
  }

  /** The five inputs of ExampleDo_errorHandling select, in order: `func(int)`
      for an int, `func(error)` for a generic error, `func()` for the empty
      data a nil error leaves, `func(*mySpecialError)` for the special error,
      and `func(interface{})` for a string, which is never reached by errors. */
  lemma HandleSelections()
    ensures forall j :: 0 <= j < |HandleFns| ==> WfFunc(HandleFns[j])
    ensures Selected(StaticFnID(FuncTy(40, [], false, [IntTy])), [Some(IntTy)], HandleFns) == Some(0)
    ensures Selected(ErrorID(GenericErrTy), [Some(GenericErrTy)], HandleFns) == Some(4)
    ensures Selected(StaticFnID(FuncTy(41, [], false, [ErrorTy])), [], HandleFns) == Some(2)
    ensures Selected(ErrorID(SpecialErrTy), [Some(SpecialErrTy)], HandleFns) == Some(3)
    ensures Selected(StaticFnID(FuncTy(42, [], false, [StringTy])), [Some(StringTy)], HandleFns) == Some(1)
  {
    HandleFnsWf();
    var e := [Some(GenericErrTy)];
    assert !Decide(ErrorID(GenericErrTy), HandleFns[0], e);
    assert !Decide(ErrorID(GenericErrTy), HandleFns[1], e);
    assert !Decide(ErrorID(GenericErrTy), HandleFns[2], e);
    assert !Decide(ErrorID(GenericErrTy), HandleFns[3], e);
    assert Decide(ErrorID(GenericErrTy), HandleFns[4], e);
  }

  /** Every handler of the error-handling example returns nothing, so the
      switch on a generic error ends in `func(error)` and its result is read
      as empty data (the reading that lets the example print its output). */
  lemma HandleGenericError(e: Dyn, hs: seq<Handler>)
    requires e.ty == GenericErrTy
    requires |hs| == |HandleFns| && forall j :: 0 <= j < |hs| ==> hs[j].ty == HandleFns[j]
    requires Values.AllWellBehaved(hs)
    ensures Typical.S(Typical.ErrorValue(e), hs) == Ok(Typical.DataValue([]))
    ensures RetDataAsWritten(HandleFns[4], hs[4].call([Plain(e)])) == Fail(IndexOutOfRange)
  {
    HandleFnsWf();
    var t := Typical.ErrorValue(e);
    assert !Typical.Accepts(t, hs[0].ty);
    assert !Typical.Accepts(t, hs[1].ty);
    assert !Typical.Accepts(t, hs[2].ty);
    assert !Typical.Accepts(t, hs[3].ty);
    assert Typical.Accepts(t, hs[4].ty);
    Typical.SSelectsFirst(t, hs, 4);
  }

  /** The consumers of `sum` (patternmatch_example_test.go:9-42). */
  const SumFns: seq<Ty> := [
    FuncTy(50, [IntTy, IntTy], false, [IntTy]),
    FuncTy(51, [IntPtrTy], false, [IntPtrTy]),
    FuncTy(52, [Float64Ty, Float64Ty], false, [Float64Ty]),
    FuncTy(53, [StringTy, ErrorTy], false, [StringTy]),
    FuncTy(54, [StringTy], false, [StringTy]),
    FuncTy(55, [MapTy, StringTy, StringTy], false, [MapTy]),
    FuncTy(56, [StringTy, StringSliceTy], true, [StringTy]),
    FuncTy(57, [AnyTy, AnyTy], false, [ErrorTy]),
    FuncTy(58, [AnySliceTy], true, [ErrorTy])
  ]

  lemma SumFnsWf()
    ensures forall j :: 0 <= j < |SumFns| ==> WfFunc(SumFns[j])
  {
  }

  /** The selected position is the first deciding one. */
  lemma {:induction false} SelectedAt(id: TypeID, ts: seq<Option<Ty>>, fns: seq<Ty>, k: nat)
    requires forall j :: 0 <= j < |fns| ==> WfFunc(fns[j])
    requires k < |fns| && Decide(id, fns[k], ts)
    requires forall j :: 0 <= j < k ==> !Decide(id, fns[j], ts)
    ensures Selected(id, ts, fns) == Some(k)
    decreases k
  {
    if k > 0 {
      SelectedAt(id, ts, fns[1..], k - 1);
    }
  }

  /** ExampleDo_patternMatch (patternmatch_example_test.go:47-80), under
      any data signature: two ints select the adder. */
  lemma SumTwoInts(id: TypeID)
    requires !IsErr(id)
    ensures forall j :: 0 <= j < |SumFns| ==> WfFunc(SumFns[j])
    ensures Selected(id, [Some(IntTy), Some(IntTy)], SumFns) == Some(0)
  {
    SumFnsWf();
  }

  /** A `*int` selects the pointer handler. */
  lemma SumIntPointer(id: TypeID)
    requires !IsErr(id)
    ensures forall j :: 0 <= j < |SumFns| ==> WfFunc(SumFns[j])
    ensures Selected(id, [Some(IntPtrTy)], SumFns) == Some(1)
  {
    SumFnsWf();
    SelectedAt(id, [Some(IntPtrTy)], SumFns, 1);
  }

  /** A string and an error select the string-error handler: the error is
      assignable to its `error` parameter. */
  lemma SumStringError(id: TypeID)
    requires !IsErr(id)
    ensures forall j :: 0 <= j < |SumFns| ==> WfFunc(SumFns[j])
    ensures Selected(id, [Some(StringTy), Some(GenericErrTy)], SumFns) == Some(3)
  {
    SumFnsWf();
    var ts := [Some(StringTy), Some(GenericErrTy)];
    assert !Decide(id, SumFns[0], ts);
    assert !Decide(id, SumFns[1], ts);
    assert !Decide(id, SumFns[2], ts);
    assert Decide(id, SumFns[3], ts);
    SelectedAt(id, ts, SumFns, 3);
  }

  /** Three strings select the variadic string handler. */
  lemma SumStrings(id: TypeID)
    requires !IsErr(id)
    ensures forall j :: 0 <= j < |SumFns| ==> WfFunc(SumFns[j])
    ensures Selected(id, [Some(StringTy), Some(StringTy), Some(StringTy)], SumFns) == Some(6)
  {
    SumFnsWf();
    var ts := [Some(StringTy), Some(StringTy), Some(StringTy)];
    forall j | 0 <= j < 6 ensures !Decide(id, SumFns[j], ts) {
      assert (!SumFns[j].variadic && |SumFns[j].ins| != 3) || SumFns[j].ins[0] == MapTy;
    }
    assert Decide(id, SumFns[6], ts) by {
      assert VariadicElem(SumFns[6]) == StringTy;
    }
    SelectedAt(id, ts, SumFns, 6);
  }

  /** A float and an int reach the pair of `interface{}`. */
  lemma SumMixedNumbers(id: TypeID)
    requires !IsErr(id)
    ensures forall j :: 0 <= j < |SumFns| ==> WfFunc(SumFns[j])
    ensures Selected(id, [Some(Float64Ty), Some(IntTy)], SumFns) == Some(7)
  {
    SumFnsWf();
    var ts := [Some(Float64Ty), Some(IntTy)];
    forall j | 0 <= j < 6 ensures !Decide(id, SumFns[j], ts) {
    }
    assert !Decide(id, SumFns[6], ts) by {
      assert !SlotFits(ts[0], SumFns[6].ins[0]);
    }
    assert Decide(id, SumFns[7], ts);
    SelectedAt(id, ts, SumFns, 7);
  }

  /** An untyped nil reaches only the catch-all `func(...interface{})`: the
      absent slot fits `interface{}` alone. */
  lemma SumUntypedNil(id: TypeID)
    requires !IsErr(id)
    ensures forall j :: 0 <= j < |SumFns| ==> WfFunc(SumFns[j])
    ensures Selected(id, [None], SumFns) == Some(8)
  {
    SumFnsWf();
    var ts: seq<Option<Ty>> := [None];
    forall j | 0 <= j < 8 ensures !Decide(id, SumFns[j], ts) {
      if SumFns[j].variadic {
        assert !SlotFits(ts[0], SumFns[j].ins[0]);
      }
    }
    assert Decide(id, SumFns[8], ts);
    SelectedAt(id, ts, SumFns, 8);
  }

  /** A nil `*float64` reaches only the catch-all. */
  lemma SumNilFloatPointer(id: TypeID)
    requires !IsErr(id)
    ensures forall j :: 0 <= j < |SumFns| ==> WfFunc(SumFns[j])
    ensures Selected(id, [Some(Float64PtrTy)], SumFns) == Some(8)
  {
    SumFnsWf();
    var ts := [Some(Float64PtrTy)];
    forall j | 0 <= j < 8 ensures !Decide(id, SumFns[j], ts) {
      if SumFns[j].variadic {
        assert !SlotFits(ts[0], SumFns[j].ins[0]);
      }
    }
    assert Decide(id, SumFns[8], ts);
    SelectedAt(id, ts, SumFns, 8);
  }

  /** The empty tuple reaches only the catch-all. */
  lemma SumNothing(id: TypeID)
    requires !IsErr(id)
    ensures forall j :: 0 <= j < |SumFns| ==> WfFunc(SumFns[j])
    ensures Selected(id, [], SumFns) == Some(8)
  {
    SumFnsWf();
    forall j | 0 <= j < 8 ensures !Decide(id, SumFns[j], []) {
    }
    assert Decide(id, SumFns[8], []);
    SelectedAt(id, [], SumFns, 8);
  }
}

=== FILE: matching.dfy ===
/** The structural matchers of match.go: whether a handler's parameter list
    accepts a tuple's recorded types (data mode), or its single parameter
    accepts an error's type (error mode). A recorded type is `None` when the
    slot held no value ("absent"). */
module Matching {
  import opened Common
  import opened Types

  /** One checked position (match.go:46): equal types, an absent slot against
      `interface{}`, or an assignable slot type. */
  predicate SlotFits(t: Option<Ty>, inT: Ty) {
    t == Some(inT) || (t.None? && inT == AnyTy) || (t.Some? && AssignableTo(t.value, inT))
  }

  /** Every slot fits `interface{}`, absent or not. */
  lemma AnyAcceptsEverySlot(t: Option<Ty>)
    ensures SlotFits(t, AnyTy)
  {
  }

  /** The parameter type position j is checked against: a fixed parameter, or
      the variadic element type beyond them. */
  function ParamAt(fixed: seq<Ty>, vt: Option<Ty>, j: nat): Ty
    requires j < |fixed| || vt.Some?
  {
    if j < |fixed| then fixed[j] else vt.value
  }

  /** The loop of match.go:37-51 from position i on: `fixed` are the declared
      non-variadic parameters, `vt` the variadic element type if any. Reaching a
      trailing slot of a `...interface{}` handler answers true at once. */
  function MatchFrom(fixed: seq<Ty>, vt: Option<Ty>, ts: seq<Option<Ty>>, i: nat): (r: bool)
    requires i <= |ts|
    requires vt.None? ==> |ts| <= |fixed|
    ensures r <==> forall j :: i <= j < |ts| ==> SlotFits(ts[j], ParamAt(fixed, vt, j))
    decreases |ts| - i
  {
    if i == |ts| then true
    else if i < |fixed| then SlotFits(ts[i], fixed[i]) && MatchFrom(fixed, vt, ts, i + 1)
    else if vt.value == AnyTy then true
    else SlotFits(ts[i], vt.value) && MatchFrom(fixed, vt, ts, i + 1)
  }

  /** The fixed parameters of a handler type. */
  function FixedParams(fnT: Ty): (ps: seq<Ty>)
    requires WfFunc(fnT)
    ensures fnT.variadic ==> ps == fnT.ins[..|fnT.ins| - 1]
    ensures !fnT.variadic ==> ps == fnT.ins
  {
    if fnT.variadic then fnT.ins[..|fnT.ins| - 1] else fnT.ins
  }

  /** `match` (match.go:22-52): a non-variadic handler needs exactly one slot
      per parameter; a variadic one with k fixed parameters needs at least k
      slots, the rest checked against the element type; every checked position
      must fit. */
  function Match(fnT: Ty, ts: seq<Option<Ty>>): (r: bool)
    requires WfFunc(fnT)
    ensures !fnT.variadic ==>
      (r <==> |ts| == |fnT.ins| && forall j :: 0 <= j < |ts| ==> SlotFits(ts[j], fnT.ins[j]))
    ensures fnT.variadic ==>
      (r <==> |ts| >= |fnT.ins| - 1
              && (forall j :: 0 <= j < |fnT.ins| - 1 ==> SlotFits(ts[j], fnT.ins[j]))
              && (forall j :: |fnT.ins| - 1 <= j < |ts| ==> SlotFits(ts[j], VariadicElem(fnT))))
  {
    var numIn := |fnT.ins|;
    if fnT.variadic then
      if numIn - 1 > |ts| then false
      else MatchFrom(FixedParams(fnT), Some(VariadicElem(fnT)), ts, 0)
    else if |ts| != numIn then false
    else MatchFrom(fnT.ins, None, ts, 0)
  }

  /** `matchErr` (match.go:11-20): exactly one parameter, whose type
      implements `error` and accepts the error's runtime type. */
  function MatchErr(fnT: Ty, errT: Ty): (r: bool)
    requires fnT.FuncTy?
    ensures r <==> |fnT.ins| == 1 && IsErrorType(fnT.ins[0]) && AssignableTo(errT, fnT.ins[0])
  {
    if |fnT.ins| != 1 then false
    else
      var inT := fnT.ins[0];
      if !Implements(inT, ErrorTy) then false
      else AssignableTo(errT, inT)
  }

  /** Error mode in full: the three conditions of match.go:12-19, each necessary. */
  lemma MatchErrExactly(fnT: Ty, errT: Ty)
    requires fnT.FuncTy?
    ensures |fnT.ins| != 1 ==> !MatchErr(fnT, errT)
    ensures |fnT.ins| == 1 && !IsErrorType(fnT.ins[0]) ==> !MatchErr(fnT, errT)
    ensures |fnT.ins| == 1 && IsErrorType(fnT.ins[0]) ==>
      (MatchErr(fnT, errT) <==> AssignableTo(errT, fnT.ins[0]))
  {
  }

  /** A handler taking `error` catches every error type, and one taking the
      error's own type catches it too. */
  lemma ErrorHandlersCatch(fnT: Ty, errT: Ty)
    requires fnT.FuncTy? && |fnT.ins| == 1 && IsErrorType(errT)
    ensures fnT.ins[0] == ErrorTy ==> MatchErr(fnT, errT)
    ensures fnT.ins[0] == errT ==> MatchErr(fnT, errT)
  {
  }

  /** Error mode is stricter than data mode on the singleton tuple: whatever
      catches an error would also accept it as data. */
  lemma {:induction false} ErrorModeStricter(fnT: Ty, errT: Ty)
    requires WfFunc(fnT)
    ensures MatchErr(fnT, errT) ==> Match(fnT, [Some(errT)])
  {
    if MatchErr(fnT, errT) {
      if fnT.variadic {
        // The only parameter is the variadic slice, which implements nothing.
        assert false;
      }
    }
  }

  /** ... but not conversely: `func(interface{})` takes an error as data, never
      in error mode. */
  lemma AnyDoesNotCatchErrors(fnT: Ty, errT: Ty)
    requires fnT.FuncTy? && fnT.ins == [AnyTy] && !fnT.variadic
    ensures Match(fnT, [Some(errT)])
    ensures !MatchErr(fnT, errT)
  {
  }

  /** The `...interface{}` shortcut (match.go:42-45): once the fixed positions
      fit, a handler whose variadic element is `interface{}` matches, whatever
      the trailing slots hold. */
  lemma VariadicAnyShortcut(fnT: Ty, ts: seq<Option<Ty>>)
    requires WfFunc(fnT) && fnT.variadic && VariadicElem(fnT) == AnyTy
    ensures Match(fnT, ts) <==>
      |ts| >= |fnT.ins| - 1 && forall j :: 0 <= j < |fnT.ins| - 1 ==> SlotFits(ts[j], fnT.ins[j])
  {
  }

  /** Zero trailing slots are enough for a variadic handler: the tuple of its
      fixed positions alone matches when they fit. */
  lemma VariadicNeedsNoTrailing(fnT: Ty, ts: seq<Option<Ty>>)
    requires WfFunc(fnT) && fnT.variadic && |ts| == |fnT.ins| - 1
    ensures Match(fnT, ts) <==> forall j :: 0 <= j < |ts| ==> SlotFits(ts[j], fnT.ins[j])
  {
  }

  /** The empty tuple matches `func()` and every variadic handler without
      fixed parameters, and nothing else. */
  lemma EmptyTupleMatches(fnT: Ty)
    requires WfFunc(fnT)
    ensures Match(fnT, []) <==> |fnT.ins| == 0 || (fnT.variadic && |fnT.ins| == 1)
  {
  }
}

=== FILE: typeids.dfy ===
/** Signatures and the two process-wide caches of type_id.go: the typeID
    variants, the signature builders `errToTypeID` and `dataToTypeID`, the
    first-write-wins `typeMap` (signature to recorded type list) and `matchMap`
    ((signature, handler type) to decision), and the cached matcher built on
    them. The caches are threaded through as values; the locking is left out. */
module TypeIds {
  import opened Common
  import opened Types
  import opened Encoding
  import opened Matching

  /** A signature. In Go the static and error ids hold a type descriptor's
      address; since an address identifies exactly one type, the model holds
      the type. A data id holds the concatenated slot codes. */
  datatype TypeID =
    | StaticFnID(fn: Ty)        // staticFnTypeID: results of a handler whose result types are all concrete
    | ErrorID(errT: Ty)         // errorTypeID: a value in error state
    | DataID(code: seq<byte>)   // dataTypeID: anything else

  /** `isErr()` of each variant. */
  predicate IsErr(id: TypeID)
    ensures IsErr(id) <==> id.ErrorID?
  {
    match id
    case StaticFnID(_) => false
    case ErrorID(_) => true
    case DataID(_) => false
  }

  /** `matchKey`: a signature and the type of a candidate handler. */
  datatype MatchKey = MatchKey(fromTypes: TypeID, toFn: Ty)

  /** `matchMap` and `typeMap`. A recorded type is `None` for an absent slot. */
  datatype Caches = Caches(matchMap: map<MatchKey, bool>, typeMap: map<TypeID, seq<Option<Ty>>>)

  /** The caches at program start. */
  const NoCaches: Caches := Caches(map[], map[])

  /** Reading `typeMap` at a missing key yields a nil (empty) list. */
  function TypesOf(c: Caches, id: TypeID): seq<Option<Ty>> {
    if id in c.typeMap then c.typeMap[id] else []
  }

  /** `addTypeMap` (type_id.go:53-59): records `types` under `id` unless `id`
      already has a list. */
  function AddTypeMap(c: Caches, id: TypeID, types: seq<Option<Ty>>): (c': Caches)
    ensures c'.matchMap == c.matchMap
    ensures c'.typeMap.Keys == c.typeMap.Keys + {id}
    ensures forall k :: k in c.typeMap ==> c'.typeMap[k] == c.typeMap[k]
    ensures id !in c.typeMap ==> c'.typeMap[id] == types
  {
    if id in c.typeMap then c else c.(typeMap := c.typeMap[id := types])
  }

  /** `getMatchData` (type_id.go:61-69): the cached decision if there is one;
      otherwise the type list recorded for the key's signature. */
  function GetMatchData(c: Caches, key: MatchKey): (r: (bool, bool, seq<Option<Ty>>))
    ensures r.1 <==> key in c.matchMap
    ensures r.1 ==> r.0 == c.matchMap[key] && r.2 == []
    ensures !r.1 ==> !r.0 && r.2 == TypesOf(c, key.fromTypes)
  {
    if key in c.matchMap then (c.matchMap[key], true, [])
    else (false, false, TypesOf(c, key.fromTypes))
  }

  /** `setMatchMap` (type_id.go:71-78): stores `val` unless the key already has
      a decision, and returns `val` itself either way. */
  function SetMatchMap(c: Caches, key: MatchKey, val: bool): (r: (bool, Caches))
    ensures r.0 == val
    ensures r.1.typeMap == c.typeMap
    ensures r.1.matchMap.Keys == c.matchMap.Keys + {key}
    ensures forall k :: k in c.matchMap ==> r.1.matchMap[k] == c.matchMap[k]
    ensures key !in c.matchMap ==> r.1.matchMap[key] == val
  {
    if key in c.matchMap then (val, c) else (val, c.(matchMap := c.matchMap[key := val]))
  }

  /** `errToTypeID` (type_id.go:80-86): the error id of the error's runtime
      type, with the singleton type list recorded. */
  function ErrToTypeID(err: seq<RVal>, c: Caches): (r: (TypeID, Caches))
    requires |err| > 0 && !err[0].Zero?
    ensures IsErr(r.0) && r.0 == ErrorID(TypeOf(err[0]))
    ensures r.1 == AddTypeMap(c, r.0, [Some(TypeOf(err[0]))])
  {
    var t := TypeOf(err[0]);
    var id := ErrorID(t);
    (id, AddTypeMap(c, id, [Some(t)]))
  }

  /** The type recorded for one slot (type_id.go:107-119): the dynamic type,
      looking inside interface-kind values; `None` when there is no value. */
  function SlotType(d: RVal): Option<Ty> {
    match d
    case Zero => None
    case Plain(x) => Some(x.ty)
    case Boxed(_, inner) => if inner.Some? then Some(inner.value.ty) else None
  }

  /** `data[i] = d.Elem()` (type_id.go:109-111): an interface-kind slot holding
      a value is replaced by that value. */
  function Unwrap(d: RVal): (u: RVal)
    ensures SlotType(u) == SlotType(d)
    ensures u.Zero? <==> d.Zero?
    ensures !u.Boxed? || u.inner.None?
  {
    if d.Boxed? && d.inner.Some? then Plain(d.inner.value) else d
  }

  /** The recorded type list of a tuple. */
  function RecordedTypes(data: seq<RVal>): (ts: seq<Option<Ty>>)
    ensures |ts| == |data|
    ensures forall i :: 0 <= i < |data| ==> ts[i] == SlotType(data[i])
  {
    seq(|data|, i requires 0 <= i < |data| => SlotType(data[i]))
  }

  /** Some slot is interface-kind (type_id.go:107-108). */
  predicate HasInterfaceSlot(data: seq<RVal>) {
    exists i :: 0 <= i < |data| && data[i].Boxed?
  }

  /** The code of one recorded type: its descriptor address, or 0 when absent. */
  function TypeCode(t: Option<Ty>): (r: seq<byte>)
    ensures 1 <= |r| <= 8
    ensures t.None? ==> r == [0]
    ensures t.Some? ==> BEValue(r) == t.value.id
  {
    WriteSmallest(if t.Some? then t.value.id else 0)
  }

  /** The slot codes of a type list, concatenated in slot order. */
  function TypesCode(ts: seq<Option<Ty>>): (r: seq<byte>)
    ensures |r| == 0 <==> |ts| == 0
    ensures |ts| > 0 ==> TypesCode(ts[..|ts| - 1]) < r
  {
    if |ts| == 0 then [] else TypesCode(ts[..|ts| - 1]) + TypeCode(ts[|ts| - 1])
  }

  /** Every slot contributes between one and eight bytes. */
  lemma {:induction false} TypesCodeLength(ts: seq<Option<Ty>>)
    ensures |ts| <= |TypesCode(ts)| <= 8 * |ts|
  {
    if |ts| > 0 {
      TypesCodeLength(ts[..|ts| - 1]);
    }
  }

  /** `dataToTypeID` (type_id.go:88-129). With a handler type whose static id is
      already recorded, that id comes back at once and nothing changes.
      Otherwise the slots are unwrapped, the id is the static id when there is
      a handler type and no interface-kind slot, else the data id of the slot
      codes, and the recorded types are added first-write-wins. Returns the id,
      the (possibly unwrapped) tuple and the caches. */
  function DataToTypeID(fnT: Option<Ty>, data: seq<RVal>, c: Caches): (r: (TypeID, seq<RVal>, Caches))
    ensures !IsErr(r.0)
    ensures fnT.Some? && StaticFnID(fnT.value) in c.typeMap ==> r == (StaticFnID(fnT.value), data, c)
    ensures !(fnT.Some? && StaticFnID(fnT.value) in c.typeMap) ==>
      && (r.0.StaticFnID? <==> fnT.Some? && !HasInterfaceSlot(data))
      && (r.0.StaticFnID? ==> r.0 == StaticFnID(fnT.value))
      && (r.0.DataID? ==> r.0.code == TypesCode(RecordedTypes(data)))
      && |r.1| == |data|
      && (forall i :: 0 <= i < |data| ==> r.1[i] == Unwrap(data[i]))
      && r.2 == AddTypeMap(c, r.0, RecordedTypes(data))
    ensures RecordedTypes(r.1) == RecordedTypes(data)
    ensures forall i :: 0 <= i < |data| ==> (r.1[i].Zero? <==> data[i].Zero?)
    ensures forall i :: 0 <= i < |data| ==> Unwrap(r.1[i]) == Unwrap(data[i])
    ensures r.0 in r.2.typeMap && r.2.matchMap == c.matchMap
  {
    if fnT.Some? && StaticFnID(fnT.value) in c.typeMap then
      (StaticFnID(fnT.value), data, c)
    else
      var types := RecordedTypes(data);
      var unwrapped := seq(|data|, i requires 0 <= i < |data| => Unwrap(data[i]));
      var concrete := fnT.Some? && !HasInterfaceSlot(data);
      var id := if concrete then StaticFnID(fnT.value) else DataID(TypesCode(types));
      (id, unwrapped, AddTypeMap(c, id, types))
  }

  /** Mode selection (the library's `doSwitch`): `matchErr` against the single
      recorded error type in error state, `match` otherwise. An error id whose
      list is not a single present type is never produced by `errToTypeID`;
      it decides false. */
  function Decide(id: TypeID, fnT: Ty, ts: seq<Option<Ty>>): (r: bool)
    requires WfFunc(fnT)
    ensures IsErr(id) ==> (r <==>
      |ts| == 1 && ts[0].Some? && |fnT.ins| == 1 && IsErrorType(fnT.ins[0]) && AssignableTo(ts[0].value, fnT.ins[0]))
    ensures !IsErr(id) ==> (r <==> Match(fnT, ts))
    ensures r ==> Match(fnT, ts)
  {
    if IsErr(id) then
      if |ts| == 1 && ts[0].Some? then
        ErrorModeStricter(fnT, ts[0].value);
        MatchErr(fnT, ts[0].value)
      else false
    else Match(fnT, ts)
  }

  /** The cached `match`: a stored decision is returned as it is; otherwise the
      decision is computed from the recorded type list and stored with
      `setMatchMap`. */
  function CachedMatch(c: Caches, id: TypeID, fnT: Ty): (r: (bool, Caches))
    requires WfFunc(fnT)
    ensures r.1.typeMap == c.typeMap
    ensures MatchKey(id, fnT) in r.1.matchMap && r.0 == r.1.matchMap[MatchKey(id, fnT)]
    ensures MatchKey(id, fnT) in c.matchMap ==> r == (c.matchMap[MatchKey(id, fnT)], c)
    ensures forall k :: k in c.matchMap ==> k in r.1.matchMap && r.1.matchMap[k] == c.matchMap[k]
  {
    var key := MatchKey(id, fnT);
    var (m, ok, types) := GetMatchData(c, key);
    if ok then (m, c) else SetMatchMap(c, key, Decide(id, fnT, types))
  }

  /** The result types a static id stands for. */
  function StaticTypes(f: Ty): (ts: seq<Option<Ty>>)
    requires f.FuncTy?
    ensures |ts| == |DataOuts(f)|
    ensures forall i :: 0 <= i < |ts| ==> ts[i] == Some(DataOuts(f)[i])
  {
    seq(|DataOuts(f)|, i requires 0 <= i < |DataOuts(f)| => Some(DataOuts(f)[i]))
  }

  /** No data result of `f` is interface-typed, so a static id may stand for it. */
  predicate StaticEligible(f: Ty) {
    f.FuncTy? && forall i :: 0 <= i < |DataOuts(f)| ==> !DataOuts(f)[i].Iface?
  }

  /** What a recorded list says about its signature: a static id records the
      handler's data result types, an error id the error's type, and a data id
      is the code of its list. */
  predicate RecordedFor(id: TypeID, ts: seq<Option<Ty>>) {
    match id
    case StaticFnID(f) => StaticEligible(f) && ts == StaticTypes(f)
    case ErrorID(t) => ts == [Some(t)]
    case DataID(code) => code == TypesCode(ts)
  }

  /** The cache invariant: every recorded list fits its signature, and every
      stored decision is the pure matcher's answer on the list recorded for its
      signature. */
  ghost predicate Sound(c: Caches) {
    && (forall id :: id in c.typeMap ==> RecordedFor(id, c.typeMap[id]))
    && (forall k :: k in c.matchMap ==>
          && k.fromTypes in c.typeMap
          && WfFunc(k.toFn)
          && c.matchMap[k] == Decide(k.fromTypes, k.toFn, c.typeMap[k.fromTypes]))
  }

  lemma NoCachesSound()
    ensures Sound(NoCaches)
  {
  }

  /** First-write-wins recording of a fitting list keeps the caches sound. */
  lemma AddTypeMapSound(c: Caches, id: TypeID, ts: seq<Option<Ty>>)
    requires Sound(c) && RecordedFor(id, ts)
    ensures Sound(AddTypeMap(c, id, ts))
  {
  }

  /** A handler's data results, when none is interface-kind, record exactly
      the handler's static types. */
  lemma StaticResultsRecorded(f: Ty, data: seq<RVal>)
    requires f.FuncTy? && Conforms(DataOuts(f), data)
    ensures !HasInterfaceSlot(data) <==> StaticEligible(f)
    ensures StaticEligible(f) ==> RecordedTypes(data) == StaticTypes(f) && !HasInterfaceSlot(data)
  {
    if !HasInterfaceSlot(data) {
      forall i | 0 <= i < |DataOuts(f)|
        ensures !DataOuts(f)[i].Iface?
      {
        assert SlotConforms(DataOuts(f)[i], data[i]);
      }
    }
    if StaticEligible(f) {
      forall i | 0 <= i < |data|
        ensures !data[i].Boxed?
      {
        assert SlotConforms(DataOuts(f)[i], data[i]);
      }
    }
  }

  /** `errToTypeID` keeps the caches sound and its list is the error's type. */
  lemma ErrToTypeIDSound(err: seq<RVal>, c: Caches)
    requires |err| > 0 && !err[0].Zero?
    requires Sound(c)
    ensures var r := ErrToTypeID(err, c);
      Sound(r.1) && r.1.typeMap[r.0] == [Some(TypeOf(err[0]))]
  {
    var t := TypeOf(err[0]);
    AddTypeMapSound(c, ErrorID(t), [Some(t)]);
  }

  /** `dataToTypeID` keeps the caches sound, and the list recorded for the id
      it returns is the tuple's own, unless an earlier tuple with different
      types wrote the same data code first. */
  lemma DataToTypeIDSound(fnT: Option<Ty>, data: seq<RVal>, c: Caches)
    requires Sound(c)
    requires fnT.Some? ==> fnT.value.FuncTy? && Conforms(DataOuts(fnT.value), data)
    ensures var r := DataToTypeID(fnT, data, c);
      && Sound(r.2)
      && (r.2.typeMap[r.0] == RecordedTypes(data)
          || (r.0.DataID? && r.0 in c.typeMap && TypesCode(c.typeMap[r.0]) == TypesCode(RecordedTypes(data))))
  {
    var r := DataToTypeID(fnT, data, c);
    if fnT.Some? {
      StaticResultsRecorded(fnT.value, data);
    }
    if !(fnT.Some? && StaticFnID(fnT.value) in c.typeMap) {
      AddTypeMapSound(c, r.0, RecordedTypes(data));
    }
  }

  /** Cache transparency: on sound caches a cached lookup gives exactly the
      pure matcher's decision on the recorded list, whether or not it was
      stored before, and leaves the caches sound. */
  lemma CachedMatchTransparent(c: Caches, id: TypeID, fnT: Ty)
    requires Sound(c) && WfFunc(fnT) && id in c.typeMap
    ensures CachedMatch(c, id, fnT).0 == Decide(id, fnT, c.typeMap[id])
    ensures Sound(CachedMatch(c, id, fnT).1)
  {
  }

  /** Once a decision is stored, any later sequence of cached lookups and
      recordings returns it unchanged. */
  lemma StoredDecisionStable(c: Caches, id: TypeID, fnT: Ty, other: TypeID, g: Ty, ts: seq<Option<Ty>>)
    requires WfFunc(fnT) && WfFunc(g) && MatchKey(id, fnT) in c.matchMap
    ensures var c1 := CachedMatch(c, other, g).1;
      var c2 := AddTypeMap(c1, other, ts);
      CachedMatch(c2, id, fnT).0 == c.matchMap[MatchKey(id, fnT)]
  {
  }

  /** The code of a one- or two-slot list is its slot codes in order. */
  lemma ShortTypesCode(x: Option<Ty>, y: Option<Ty>)
    ensures TypesCode([x]) == TypeCode(x)
    ensures TypesCode([x, y]) == TypeCode(x) + TypeCode(y)
  {
    assert [x, y][..1] == [x];
    assert [x][..0] == [];
  }

  /** Two data codes collide although their type lists differ: the recorded
      list of a data id need not be the tuple's own. */
  lemma DataCodesCollide(a: Ty, b: Ty, ab: Ty)
    requires a.id == 1 && b.id == 2 && ab.id == 0x102
    ensures TypesCode([Some(a), Some(b)]) == TypesCode([Some(ab)])
  {
    CodesAreNotPrefixFree();
    ShortTypesCode(Some(a), Some(b));
    ShortTypesCode(Some(ab), Some(ab));
  }
}

=== FILE: types.dfy ===
/** The abstract type universe the dispatcher reasons about: runtime types,
    their kinds and method sets, interface satisfaction and assignability, and
    the runtime values (`reflect.Value`) that carry them. */
module Types {
  import opened Common

  /** The `reflect.Kind` values the library distinguishes. */
  datatype Kind =
    | Invalid | Bool | Int | Float64 | String | Struct
    | Chan | Func | Map | Ptr | Interface | Slice

  /** Kinds a named type of the `Named` shape may have: interfaces, slices and
      functions have shapes of their own below. */
  type BaseKind = k: Kind | k != Invalid && k != Interface && k != Slice && k != Func
    witness Bool

  /** A runtime type. `id` is the address of its type descriptor, the number
      the signature encoder writes; the method sets stand for Go's method sets,
      and an interface type lists the methods it requires. */
  datatype Ty =
    | Named(id: uintptr, kind: BaseKind, methods: set<string>)
    | Iface(id: uintptr, required: set<string>)
    | SliceOf(id: uintptr, elem: Ty)
    | FuncTy(id: uintptr, ins: seq<Ty>, variadic: bool, outs: seq<Ty>)

  /** `interface{}`: the interface that requires nothing. */
  const AnyTy: Ty := Iface(1, {})

  /** `error`: the interface that requires `Error`. */
  const ErrorTy: Ty := Iface(2, {"Error"})

  function KindOfTy(t: Ty): Kind {
    match t
    case Named(_, k, _) => k
    case Iface(_, _) => Interface
    case SliceOf(_, _) => Slice
    case FuncTy(_, _, _, _) => Func
  }

  /** The methods a value of type `t` offers. */
  function MethodSet(t: Ty): set<string> {
    match t
    case Named(_, _, ms) => ms
    case Iface(_, req) => req
    case SliceOf(_, _) => {}
    case FuncTy(_, _, _, _) => {}
  }

  /** `t.Implements(u)`: `t` offers every method the interface `u` requires. */
  predicate Implements(t: Ty, u: Ty)
    requires u.Iface?
  {
    u.required <= MethodSet(t)
  }

  /** `t.AssignableTo(u)`, restricted to the identity and interface cases. */
  predicate AssignableTo(t: Ty, u: Ty) {
    t == u || (u.Iface? && Implements(t, u))
  }

  /** `t` implements `error`. */
  predicate IsErrorType(t: Ty) {
    Implements(t, ErrorTy)
  }

  /** A function type as the runtime builds it: a variadic function's last
      parameter is a slice type. */
  predicate WfFunc(f: Ty) {
    f.FuncTy? && (f.variadic ==> |f.ins| > 0 && f.ins[|f.ins| - 1].SliceOf?)
  }

  /** `fnT.In(fnT.NumIn() - 1).Elem()`: the element type of the variadic slice. */
  function VariadicElem(f: Ty): Ty
    requires WfFunc(f) && f.variadic
  {
    f.ins[|f.ins| - 1].elem
  }

  /** The last declared result is exactly `error` (not merely an implementer). */
  predicate ReturnsError(f: Ty)
    requires f.FuncTy?
  {
    |f.outs| > 0 && f.outs[|f.outs| - 1] == ErrorTy
  }

  /** The declared results that become data when a call succeeds: all of them,
      or all but a trailing `error`. */
  function DataOuts(f: Ty): (os: seq<Ty>)
    requires f.FuncTy?
    ensures ReturnsError(f) ==> os == f.outs[..|f.outs| - 1]
    ensures !ReturnsError(f) ==> os == f.outs
  {
    if ReturnsError(f) then f.outs[..|f.outs| - 1] else f.outs
  }

  /** A concrete runtime value: its dynamic type (never an interface type),
      whether it is a nil pointer/map/slice/..., and an opaque payload. */
  datatype Dyn = Dyn(ty: Ty, isNil: bool, payload: nat)

  /** A `reflect.Value`: the zero Value, a value of concrete static type, or a
      value whose static type is an interface, holding a dynamic value or nil. */
  datatype RVal =
    | Zero
    | Plain(d: Dyn)
    | Boxed(declared: Ty, inner: Option<Dyn>)

  /** A value of declared type `t` as a call returns it: interface-typed
      results come back as interface-kind values holding an implementer or nil,
      all others as plain values of exactly that type. */
  predicate SlotConforms(t: Ty, v: RVal) {
    if t.Iface? then
      v.Boxed? && v.declared == t
      && (v.inner.Some? ==> !v.inner.value.ty.Iface? && Implements(v.inner.value.ty, t))
    else
      v.Plain? && v.d.ty == t
  }

  /** Values `vs` as returned for declared types `ts`, position by position. */
  predicate Conforms(ts: seq<Ty>, vs: seq<RVal>) {
    |ts| == |vs| && forall i :: 0 <= i < |vs| ==> SlotConforms(ts[i], vs[i])
  }

  /** `v.Kind()`. */
  function KindOf(v: RVal): Kind {
    match v
    case Zero => Invalid
    case Plain(d) => KindOfTy(d.ty)
    case Boxed(_, _) => Interface
  }

  /** `v.Type()`, which panics on the zero Value. */
  function TypeOf(v: RVal): Ty
    requires !v.Zero?
  {
    match v
    case Plain(d) => d.ty
    case Boxed(s, _) => s
  }

  /** `v.Elem()` for an interface-kind value: its dynamic value, or the zero
      Value when the interface is nil. */
  function Elem(v: RVal): (e: RVal)
    requires v.Boxed?
    ensures e.Zero? <==> v.inner.None?
  {
    match v.inner
    case Some(d) => Plain(d)
    case None => Zero
  }

  /** The kinds for which `IsNil` is defined. */
  predicate Nillable(k: Kind) {
    k == Chan || k == Func || k == Map || k == Ptr || k == Interface || k == Slice
  }

  /** `v.IsNil()`, which Go only allows on nillable kinds. */
  predicate IsNil(v: RVal)
    requires Nillable(KindOf(v))
  {
    match v
    case Plain(d) => d.isNil
    case Boxed(_, inner) => inner.None?
  }

  /** `notNillableOrNotNil` (switch.go): false only for a nil value of a
      nillable kind. */
  predicate NotNillableOrNotNil(v: RVal)
    ensures !NotNillableOrNotNil(v) <==> (v.Plain? || v.Boxed?) && Nillable(KindOf(v)) && IsNil(v)
  {
    if Nillable(KindOf(v)) then !IsNil(v) else true
  }

  /** `v.Interface()`: the dynamic value as an `interface{}`, `None` being a nil
      interface. Go panics on the zero Value. */
  function InterfaceOf(v: RVal): (r: Option<Dyn>)
    requires !v.Zero?
    ensures v.Plain? ==> r == Some(v.d)
    ensures v.Boxed? ==> r == v.inner
  {
    match v
    case Plain(d) => Some(d)
    case Boxed(_, inner) => inner
  }

  /** Why an operation panicked. */
  datatype Panic =
    | NotAFunction          // callable or reflect's Call: the argument's kind is not Func
    | NotNiladic            // Do: the function takes parameters
    | BadCall               // reflect.Value.Call rejected the argument count
    | IndexOutOfRange       // a slice was indexed past its end
    | ZeroValue             // a method was called on the zero reflect.Value
    | NotNillable           // IsNil was called on a value of a non-nillable kind
    | NilType               // a method was called on a nil reflect.Type
    | Propagated(err: Dyn)  // First/All on a value in error state

  /** Either a result or a panic. */
  datatype Outcome<+T> = Ok(value: T) | Fail(panic: Panic)

  /** Every type is assignable to `interface{}`. */
  lemma AssignableToAny(t: Ty)
    ensures AssignableTo(t, AnyTy)
  {
  }

  /** A type implementing `error` is assignable to `error`. */
  lemma ErrorTypesAssignToError(t: Ty)
    ensures IsErrorType(t) <==> AssignableTo(t, ErrorTy)
  {
  }
}

=== FILE: typical.dfy ===
/** The interface design of typical.go, data_value.go and error_value.go: a
    value is either a data tuple or a single error, each variant with its own
    accessors, and `S` switches through a mode-selecting dispatcher (matchErr
    in error state, match otherwise) with no caches. This module also relates
    the design to the struct design of value.go. */
module Typical {
  import opened Common
  import opened Types
  import opened Matching
  import opened TypeIds
  import opened Dispatch
  import Values

  /** `Value` (typical.go:18-66) with its two implementations: `dataValue`
      (data_value.go:7) and `errorValue` (error_value.go:7). */
  datatype TValue = DataValue(slots: seq<RVal>) | ErrorValue(err: Dyn)

  /** An error value holds a value whose type implements `error`; the
      constructor never builds one from a nil error. */
  predicate Wf(t: TValue) {
    t.ErrorValue? ==> IsErrorType(t.err.ty)
  }

  /** The arguments the candidates are called with: the data, or the singleton
      tuple holding the error (error_value.go:12). */
  function Args(t: TValue): (args: seq<RVal>)
    ensures t.ErrorValue? ==> args == [Plain(t.err)]
    ensures t.DataValue? ==> args == t.slots
  {
    if t.ErrorValue? then [Plain(t.err)] else t.slots
  }

  /** Mode selection of `doSwitch`: in error state `matchErr` on the error's
      type; otherwise `match` on the data's recorded types (typical.go:24-29). */
  predicate Accepts(t: TValue, fnT: Ty)
    requires WfFunc(fnT)
    ensures t.ErrorValue? ==> (Accepts(t, fnT) <==>
      |fnT.ins| == 1 && IsErrorType(fnT.ins[0]) && AssignableTo(t.err.ty, fnT.ins[0]))
    ensures t.DataValue? ==> (Accepts(t, fnT) <==> Match(fnT, RecordedTypes(t.slots)))
    ensures Accepts(t, fnT) ==> Match(fnT, RecordedTypes(Args(t)))
  {
    if t.ErrorValue? then
      ErrorModeStricter(fnT, t.err.ty);
      assert RecordedTypes(Args(t)) == [Some(t.err.ty)];
      MatchErr(fnT, t.err.ty)
    else Match(fnT, RecordedTypes(t.slots))
  }

  /** What a handler's results become: a returned non-nil `error` an error
      value, anything else a data value (typical.go:31-34). */
  function Wrap(r: Ret): (t: TValue)
    ensures t.ErrorValue? <==> r.ErrorResult?
    ensures r.ErrorResult? ==> t.err == r.err
    ensures r.DataResult? ==> t.slots == r.slots
  {
    match r
    case ErrorResult(e) => ErrorValue(e)
    case DataResult(slots) => DataValue(slots)
  }

  /** `doSwitch`: the result of the first accepting candidate, `None` when no
      candidate accepts; a candidate that is not a function panics when
      reached. */
  function DoSwitch(t: TValue, hs: seq<Handler>): (r: Outcome<Option<TValue>>)
    requires Values.AllWellBehaved(hs)
    ensures r.Ok? && r.value.Some? && Wf(t) ==> Wf(r.value.value)
    decreases |hs|
  {
    if |hs| == 0 then Ok(None)
    else
      match Callable(hs[0])
      case Fail(p) => Fail(p)
      case Ok(fnT) =>
        assert WellBehaved(hs[0]);
        if Accepts(t, fnT) then Ok(Some(Wrap(RetData(fnT, hs[0].call(Args(t))))))
        else DoSwitch(t, hs[1..])
  }

  /** `S` of both variants (data_value.go:11-17, error_value.go:11-17): the
      switch's result, or the receiver itself when nothing accepts. */
  function S(t: TValue, hs: seq<Handler>): (r: Outcome<TValue>)
    requires Values.AllWellBehaved(hs)
    ensures r.Ok? && Wf(t) ==> Wf(r.value)
    ensures DoSwitch(t, hs) == Ok(None) ==> r == Ok(t)
  {
    match DoSwitch(t, hs)
    case Fail(p) => Fail(p)
    case Ok(None) => Ok(t)
    case Ok(Some(u)) => Ok(u)
  }

  /** First match wins: when candidate k is the first that accepts, every
      earlier one being a function that does not, `S` returns what candidate
      k's results make and no other candidate is called. */
  lemma {:induction false} SSelectsFirst(t: TValue, hs: seq<Handler>, k: nat)
    requires Values.AllWellBehaved(hs) && k < |hs|
    requires forall j :: 0 <= j <= k ==> hs[j].ty.FuncTy? && WfFunc(hs[j].ty)
    requires forall j :: 0 <= j < k ==> !Accepts(t, hs[j].ty)
    requires Accepts(t, hs[k].ty)
    ensures WellBehaved(hs[k])
    ensures S(t, hs) == Ok(Wrap(RetData(hs[k].ty, hs[k].call(Args(t)))))
    decreases k
  {
    assert WellBehaved(hs[k]);
    DoSwitchSelectsFirst(t, hs, k);
  }

  lemma {:induction false} DoSwitchSelectsFirst(t: TValue, hs: seq<Handler>, k: nat)
    requires Values.AllWellBehaved(hs) && k < |hs|
    requires forall j :: 0 <= j <= k ==> hs[j].ty.FuncTy? && WfFunc(hs[j].ty)
    requires forall j :: 0 <= j < k ==> !Accepts(t, hs[j].ty)
    requires Accepts(t, hs[k].ty)
    ensures WellBehaved(hs[k])
    ensures DoSwitch(t, hs) == Ok(Some(Wrap(RetData(hs[k].ty, hs[k].call(Args(t))))))
    decreases k
  {
    assert WellBehaved(hs[k]);
    if k > 0 {
      assert Values.AllWellBehaved(hs[1..]);
      DoSwitchSelectsFirst(t, hs[1..], k - 1);
    }
  }

  /** Propagation (typical.go:36-38): when every candidate is a function that
      does not accept, `S` returns the receiver, data or error alike. */
  lemma {:induction false} SNoMatch(t: TValue, hs: seq<Handler>)
    requires Values.AllWellBehaved(hs)
    requires forall j :: 0 <= j < |hs| ==> hs[j].ty.FuncTy? && WfFunc(hs[j].ty)
    requires forall j :: 0 <= j < |hs| ==> !Accepts(t, hs[j].ty)
    ensures DoSwitch(t, hs) == Ok(None)
    ensures S(t, hs) == Ok(t)
    decreases |hs|
  {
    if |hs| > 0 {
      assert Values.AllWellBehaved(hs[1..]);
      SNoMatch(t, hs[1..]);
    }
  }

  /** A candidate that is not a function panics `S` when reached
      (typical.go:44). */
  lemma {:induction false} SNotAFunction(t: TValue, hs: seq<Handler>, k: nat)
    requires Values.AllWellBehaved(hs) && k < |hs|
    requires forall j :: 0 <= j < k ==> hs[j].ty.FuncTy? && WfFunc(hs[j].ty)
    requires forall j :: 0 <= j < k ==> !Accepts(t, hs[j].ty)
    requires !hs[k].ty.FuncTy?
    ensures S(t, hs) == Fail(NotAFunction)
    decreases k
  {
    if k > 0 {
      assert Values.AllWellBehaved(hs[1..]);
      SNotAFunction(t, hs[1..], k - 1);
    }
  }

  /** The non-function check is lazy, as in switch.go:118-126: a candidate
      that is not a function but comes after an accepting one is never
      reached, and `S` does not panic. */
  lemma NonFunctionAfterAcceptNotReached(e: Dyn, hs: seq<Handler>)
    requires IsErrorType(e.ty) && Values.AllWellBehaved(hs) && |hs| == 2
    requires hs[0].ty.FuncTy? && WfFunc(hs[0].ty) && hs[0].ty.ins == [ErrorTy] && !hs[0].ty.variadic
    requires !hs[1].ty.FuncTy?
    ensures S(ErrorValue(e), hs).Ok?
  {
    ErrorStateAccepts(e, hs[0].ty);
    SSelectsFirst(ErrorValue(e), hs, 0);
  }

  /** In error state only a single-parameter candidate whose parameter
      implements `error` and accepts the error's type is chosen; `func(error)`
      accepts every error (typical.go:24-29). */
  lemma ErrorStateAccepts(e: Dyn, fnT: Ty)
    requires IsErrorType(e.ty) && WfFunc(fnT)
    ensures Accepts(ErrorValue(e), fnT) <==>
      |fnT.ins| == 1 && IsErrorType(fnT.ins[0]) && AssignableTo(e.ty, fnT.ins[0])
    ensures |fnT.ins| == 1 && fnT.ins[0] == ErrorTy ==> Accepts(ErrorValue(e), fnT)
  {
    MatchErrExactly(fnT, e.ty);
  }

  /** `Error()` (data_value.go:36-38, error_value.go:31-33): nil for data, the
      held error otherwise. */
  function Error(t: TValue): (r: Option<Dyn>)
    ensures r.Some? <==> t.ErrorValue?
    ensures t.ErrorValue? ==> r == Some(t.err)
  {
    if t.ErrorValue? then Some(t.err) else None
  }

  /** `First` (data_value.go:19-24, error_value.go:19-21): the error value
      panics with its error; the data value reads its first slot, with the nil
      check guarded as `notNillableOrNotNil` does. Empty data has no first slot,
      and the zero Value an untyped nil argument leaves has no value to read. */
  function First(t: TValue): (r: Outcome<Option<Dyn>>)
    ensures t.ErrorValue? ==> r == Fail(Propagated(t.err))
    ensures t.DataValue? ==> (r.Ok? <==> |t.slots| > 0 && !t.slots[0].Zero?)
    ensures r.Ok? ==> r.value == Values.Datum(t.slots[0])
  {
    match t
    case ErrorValue(e) => Fail(Propagated(e))
    case DataValue(s) =>
      if |s| == 0 then Fail(IndexOutOfRange)
      else if s[0].Zero? then Fail(ZeroValue)
      else if NotNillableOrNotNil(s[0]) then Ok(InterfaceOf(s[0]))
      else Ok(None)
  }

  /** The loop of data_value.go:28-32 from position i on. */
  function AllFrom(s: seq<RVal>, i: nat): (r: Outcome<seq<Option<Dyn>>>)
    requires i <= |s|
    ensures r.Ok? <==> forall j :: i <= j < |s| ==> !s[j].Zero?
    ensures r.Ok? ==> |r.value| == |s| - i && forall j :: i <= j < |s| ==> r.value[j - i] == Values.Datum(s[j])
    decreases |s| - i
  {
    if i == |s| then Ok([])
    else if s[i].Zero? then Fail(ZeroValue)
    else
      match AllFrom(s, i + 1)
      case Fail(p) => Fail(p)
      case Ok(rest) => Ok([Values.Datum(s[i])] + rest)
  }

  /** `All` (data_value.go:26-34, error_value.go:27-29): every slot in order,
      nil for nil slots; the error value panics with its error. */
  function All(t: TValue): (r: Outcome<seq<Option<Dyn>>>)
    ensures t.ErrorValue? ==> r == Fail(Propagated(t.err))
    ensures t.DataValue? ==> (r.Ok? <==> forall j :: 0 <= j < |t.slots| ==> !t.slots[j].Zero?)
    ensures r.Ok? ==> |r.value| == |t.slots| && forall j :: 0 <= j < |t.slots| ==> r.value[j] == Values.Datum(t.slots[j])
  {
    match t
    case ErrorValue(e) => Fail(Propagated(e))
    case DataValue(s) => AllFrom(s, 0)
  }

  /** `First` of data_value.go:19-24 as written: `IsNil` is called without
      a kind guard, and Go panics when the first datum's kind is not
      nillable. */
  function FirstAsWritten(t: TValue): (r: Outcome<Option<Dyn>>)
    ensures t.ErrorValue? ==> r == Fail(Propagated(t.err))
    ensures t.DataValue? ==> (r.Ok? <==> |t.slots| > 0 && !t.slots[0].Zero? && Nillable(KindOf(t.slots[0])))
    ensures r.Ok? ==> r == First(t)
  {
    match t
    case ErrorValue(e) => Fail(Propagated(e))
    case DataValue(s) =>
      if |s| == 0 then Fail(IndexOutOfRange)
      else if s[0].Zero? then Fail(ZeroValue)
      else if !Nillable(KindOf(s[0])) then Fail(NotNillable)
      else if !IsNil(s[0]) then Ok(InterfaceOf(s[0]))
      else Ok(None)
  }

  /** The loop of data_value.go:28-32 as written, from position i on: every
      slot must be of a nillable kind. */
  function AllFromAsWritten(s: seq<RVal>, i: nat): (r: Outcome<seq<Option<Dyn>>>)
    requires i <= |s|
    ensures r.Ok? <==> forall j :: i <= j < |s| ==> !s[j].Zero? && Nillable(KindOf(s[j]))
    ensures r.Ok? ==> r == AllFrom(s, i)
    decreases |s| - i
  {
    if i == |s| then Ok([])
    else if s[i].Zero? then Fail(ZeroValue)
    else if !Nillable(KindOf(s[i])) then Fail(NotNillable)
    else
      match AllFromAsWritten(s, i + 1)
      case Fail(p) => Fail(p)
      case Ok(rest) => Ok([if !IsNil(s[i]) then InterfaceOf(s[i]) else None] + rest)
  }

  /** `All` of data_value.go:26-34 as written. */
  function AllAsWritten(t: TValue): (r: Outcome<seq<Option<Dyn>>>)
    ensures t.ErrorValue? ==> r == Fail(Propagated(t.err))
    ensures t.DataValue? ==> (r.Ok? <==> forall j :: 0 <= j < |t.slots| ==> !t.slots[j].Zero? && Nillable(KindOf(t.slots[j])))
    ensures r.Ok? ==> r == All(t)
  {
    match t
    case ErrorValue(e) => Fail(Propagated(e))
    case DataValue(s) => AllFromAsWritten(s, 0)
  }

  /** `Data(1).First()` and `Data(1).All()` panic as written, while the
      guarded reading gives the datum back. */
  lemma NonNillableDatumPanics(d: Dyn)
    requires !Nillable(KindOfTy(d.ty))
    ensures FirstAsWritten(Data([Some(d)])) == Fail(NotNillable)
    ensures AllAsWritten(Data([Some(d)])) == Fail(NotNillable)
    ensures First(Data([Some(d)])) == Ok(Some(d))
    ensures All(Data([Some(d)])) == Ok([Some(d)])
  {
    var t := Data([Some(d)]);
    assert t.slots == [Plain(d)];
    assert AllFrom(t.slots, 1) == Ok([]);
    assert Values.Datum(t.slots[0]) == Some(d);
    assert [Some(d)] + [] == [Some(d)];
  }

  /** `FirstErr` (error_value.go:23-25): (nil, error) for the error value; for
      data, the first datum and a nil error (typical.go:47-48). */
  function FirstErr(t: TValue): (r: Outcome<(Option<Dyn>, Option<Dyn>)>)
    ensures t.ErrorValue? ==> r == Ok((None, Some(t.err)))
    ensures t.DataValue? ==> (r.Ok? <==> First(t).Ok?) && (r.Ok? ==> r.value == (First(t).value, None))
  {
    match t
    case ErrorValue(e) => Ok((None, Some(e)))
    case DataValue(_) =>
      match First(t)
      case Fail(p) => Fail(p)
      case Ok(d) => Ok((d, None))
  }

  /** `AllErr` (typical.go:50-51): (nil, error) for the error value; for data,
      all data and a nil error. */
  function AllErr(t: TValue): (r: Outcome<(seq<Option<Dyn>>, Option<Dyn>)>)
    ensures t.ErrorValue? ==> r == Ok(([], Some(t.err)))
    ensures t.DataValue? ==> (r.Ok? <==> All(t).Ok?) && (r.Ok? ==> r.value == (All(t).value, None))
  {
    match t
    case ErrorValue(e) => Ok(([], Some(e)))
    case DataValue(_) =>
      match All(t)
      case Fail(p) => Fail(p)
      case Ok(ds) => Ok((ds, None))
  }

  /** `reflect.ValueOf` of one `interface{}` argument: an untyped nil gives the
      zero Value (typical.go:86). */
  function ValueOf(a: Option<Dyn>): (r: RVal)
    ensures r.Zero? <==> a.None?
    ensures a.Some? ==> r == Plain(a.value)
  {
    if a.Some? then Plain(a.value) else Zero
  }

  /** `Data` (typical.go:83-89): a data value with one slot per argument, in
      order. */
  function Data(args: seq<Option<Dyn>>): (r: TValue)
    ensures r.DataValue? && Wf(r) && Error(r).None?
    ensures |r.slots| == |args| && forall i :: 0 <= i < |args| ==> r.slots[i] == ValueOf(args[i])
  {
    DataValue(seq(|args|, i requires 0 <= i < |args| => ValueOf(args[i])))
  }

  /** Without untyped nils, `Data` then `All` gives the arguments back, nils
      of nillable kinds read as nil. */
  lemma DataAllRoundTrip(args: seq<Option<Dyn>>)
    requires forall i :: 0 <= i < |args| ==> args[i].Some?
    ensures All(Data(args)).Ok?
    ensures |All(Data(args)).value| == |args|
    ensures forall i :: 0 <= i < |args| ==> All(Data(args)).value[i] == Values.AsInterface(args[i])
  {
  }

  /** An untyped nil argument cannot be read back: the zero Value it leaves
      has no value. */
  lemma UntypedNilUnreadable(args: seq<Option<Dyn>>)
    requires |args| > 0 && args[0].None?
    ensures First(Data(args)) == Fail(ZeroValue)
    ensures All(Data(args)) == Fail(ZeroValue)
  {
  }

  /** `Error` (typical.go:94-99): nil gives `Data()`, anything else an error
      value. */
  function ErrorOf(err: Option<Dyn>): (r: TValue)
    requires err.Some? ==> IsErrorType(err.value.ty)
    ensures Wf(r) && Error(r) == err
    ensures err.None? ==> r == Data([])
  {
    if err.None? then Data([]) else ErrorValue(err.value)
  }

  /** `Do` (typical.go:73-80): panics unless the argument is a function with no
      parameters (a variadic one counts its slice parameter), then calls it and
      wraps its results. */
  function Do(h: Handler): (r: Outcome<TValue>)
    requires WellBehaved(h)
    ensures r.Fail? <==> !h.ty.FuncTy? || |h.ty.ins| != 0
    ensures !h.ty.FuncTy? ==> r == Fail(NotAFunction)
    ensures h.ty.FuncTy? && |h.ty.ins| != 0 ==> r == Fail(NotNiladic)
    ensures r.Ok? ==> Wf(r.value) && r.value == Wrap(RetData(h.ty, h.call([])))
  {
    match Callable(h)
    case Fail(p) => Fail(p)
    case Ok(fnT) =>
      if |fnT.ins| != 0 then Fail(NotNiladic)
      else Ok(Wrap(RetData(fnT, h.call([]))))
  }

  /** typical.go's `Do` is stricter than value.go's: a variadic function whose
      only parameter is its slice is refused here and called there. */
  lemma DoVariadicDiffers(h: Handler, c: Caches)
    requires WellBehaved(h) && h.ty.FuncTy? && h.ty.variadic && |h.ty.ins| == 1
    ensures Do(h) == Fail(NotNiladic)
    ensures Values.Do(h, c).Ok?
  {
  }

  // ---------------------------------------------------------------------
  // The two designs agree.

  /** The interface value a struct `Value` of value.go stands for. */
  function Abs(v: Values.Value): (t: TValue)
    requires Values.Wf(v)
    ensures t.ErrorValue? <==> IsErr(v.dataID)
    ensures Wf(t) && Args(t) == v.dataErr
  {
    if IsErr(v.dataID) then ErrorValue(v.dataErr[0].d) else DataValue(v.dataErr)
  }

  /** Reading interface-kind slots through to their dynamic values. */
  function Norm(t: TValue): (u: TValue)
    ensures u.ErrorValue? <==> t.ErrorValue?
    ensures t.ErrorValue? ==> u == t
    ensures t.DataValue? ==> |u.slots| == |t.slots| && forall i :: 0 <= i < |t.slots| ==> u.slots[i] == Unwrap(t.slots[i])
  {
    match t
    case ErrorValue(_) => t
    case DataValue(s) => DataValue(seq(|s|, i requires 0 <= i < |s| => Unwrap(s[i])))
  }

  /** The outcome of a switch with interface slots read through. */
  function NormOutcome(o: Outcome<TValue>): (r: Outcome<TValue>)
    ensures r.Fail? <==> o.Fail?
    ensures o.Ok? ==> r == Ok(Norm(o.value))
    ensures o.Fail? ==> r == o
  {
    match o
    case Ok(t) => Ok(Norm(t))
    case Fail(p) => Fail(p)
  }

  /** The outcome of a struct-design switch, read as an interface value. */
  function AbsOutcome(o: Outcome<Values.Value>): (r: Outcome<TValue>)
    requires o.Ok? ==> Values.Wf(o.value)
    ensures r.Fail? <==> o.Fail?
    ensures o.Ok? ==> r == Ok(Abs(o.value))
    ensures o.Fail? ==> r == Fail(o.panic)
  {
    match o
    case Ok(v) => Ok(Abs(v))
    case Fail(p) => Fail(p)
  }

  /** Reading interface slots through twice reads them through once. */
  lemma NormIdempotent(t: TValue)
    ensures Norm(Norm(t)) == Norm(t)
  {
    if t.DataValue? {
      assert Norm(Norm(t)).slots == Norm(t).slots;
    }
  }

  /** Both designs select candidates alike: the interface design's mode
      selection is the decision the struct design makes on its signature. */
  lemma AcceptsAgrees(v: Values.Value, fnT: Ty)
    requires Values.Wf(v) && WfFunc(fnT)
    ensures Accepts(Abs(v), fnT) == Decide(v.dataID, fnT, Values.ValueTypes(v))
  {
    if IsErr(v.dataID) {
      assert Values.ValueTypes(v) == [Some(v.dataErr[0].d.ty)];
    }
  }

  /** Wrapping a handler's results gives the same value in both designs, up to
      reading interface slots through. */
  lemma WrapAgrees(fnT: Ty, results: seq<RVal>)
    requires fnT.FuncTy? && Conforms(fnT.outs, results)
    ensures Norm(Abs(Values.PureRet(fnT, results))) == Norm(Wrap(RetData(fnT, results)))
  {
    match RetData(fnT, results)
    case ErrorResult(e) =>
    case DataResult(slots) =>
      NormIdempotent(Wrap(RetData(fnT, results)));
      assert Abs(Values.PureRet(fnT, results)) == Norm(Wrap(RetData(fnT, results)));
  }

  /** The struct design's switch and the interface design's switch choose the
      same candidate, call it with the same arguments, make the same value up
      to reading interface slots through, and panic alike. With
      `Values.STransparent` this carries over to the cached switch. */
  lemma {:induction false} SAgrees(v: Values.Value, hs: seq<Handler>)
    requires Values.Wf(v) && Values.AllWellBehaved(hs)
    ensures NormOutcome(AbsOutcome(Values.PureS(v, hs))) == NormOutcome(S(Abs(v), hs))
    decreases |hs|
  {
    if |hs| > 0 {
      match Callable(hs[0])
      case Fail(_) =>
      case Ok(fnT) =>
        assert WellBehaved(hs[0]);
        AcceptsAgrees(v, fnT);
        if Accepts(Abs(v), fnT) {
          WrapAgrees(fnT, hs[0].call(v.dataErr));
        } else {
          assert Values.AllWellBehaved(hs[1..]);
          SAgrees(v, hs[1..]);
        }
    }
  }
}

=== FILE: values.dfy ===
/** The `Value` of value.go (a tuple of runtime values with its signature), its
    accessors and constructors, `Do`, and the switch `S` of switch.go running
    through the caches of type_id.go. The caches are threaded through every
    operation that touches them. */
module Values {
  import opened Common
  import opened Types
  import opened Matching
  import opened TypeIds
  import opened Dispatch

  /** `Value` (value.go:17-21): the data, or the single error, and the
      signature of their types. */
  datatype Value = Value(dataErr: seq<RVal>, dataID: TypeID)

  /** What the constructors guarantee: an error value holds exactly one
      non-interface value whose type implements `error`; no slot is the zero
      Value. */
  predicate Wf(v: Value) {
    && (IsErr(v.dataID) ==> |v.dataErr| == 1 && v.dataErr[0].Plain? && IsErrorType(v.dataErr[0].d.ty))
    && (forall i :: 0 <= i < |v.dataErr| ==> !v.dataErr[i].Zero?)
  }

  /** `Error` (value.go:71-78): the held error in error state, nil otherwise. */
  function Error(v: Value): (r: Option<Dyn>)
    requires Wf(v)
    ensures r.Some? <==> IsErr(v.dataID)
    ensures r.Some? ==> |v.dataErr| == 1 && v.dataErr[0] == Plain(r.value) && IsErrorType(r.value.ty)
  {
    if IsErr(v.dataID) then Some(v.dataErr[0].d) else None
  }

  /** One slot as an `interface{}`: nil for a nil of a nillable kind, the
      value otherwise (value.go:40-43, 64-66). */
  function Datum(s: RVal): (r: Option<Dyn>)
    requires !s.Zero?
    ensures r.None? <==> !NotNillableOrNotNil(s)
    ensures r.Some? ==> r == InterfaceOf(s)
  {
    if NotNillableOrNotNil(s) then InterfaceOf(s) else None
  }

  /** `FirstErr` (value.go:34-44): (nil, error) in error state; otherwise the
      first slot as an `interface{}`. Indexing the first slot of empty data
      panics. */
  function FirstErr(v: Value): (r: Outcome<(Option<Dyn>, Option<Dyn>)>)
    requires Wf(v)
    ensures IsErr(v.dataID) ==> r == Ok((None, Error(v)))
    ensures !IsErr(v.dataID) ==> (r.Fail? <==> |v.dataErr| == 0)
    ensures !IsErr(v.dataID) && |v.dataErr| > 0 ==> r == Ok((Datum(v.dataErr[0]), None))
  {
    var err := Error(v);
    if err.Some? then Ok((None, err))
    else if |v.dataErr| == 0 then Fail(IndexOutOfRange)
    else
      var first := v.dataErr[0];
      if NotNillableOrNotNil(first) then Ok((InterfaceOf(first), None)) else Ok((None, None))
  }

  /** `AllErr` (value.go:57-69): (nil, error) in error state; otherwise every
      slot, in order, as an `interface{}`. */
  function AllErr(v: Value): (r: (seq<Option<Dyn>>, Option<Dyn>))
    requires Wf(v)
    ensures r.1 == Error(v)
    ensures IsErr(v.dataID) ==> r.0 == []
    ensures !IsErr(v.dataID) ==>
      |r.0| == |v.dataErr| && forall i :: 0 <= i < |v.dataErr| ==> r.0[i] == Datum(v.dataErr[i])
  {
    var err := Error(v);
    if err.Some? then ([], err)
    else (seq(|v.dataErr|, i requires 0 <= i < |v.dataErr| => Datum(v.dataErr[i])), None)
  }

  /** `First` (value.go:23-32): `FirstErr`'s datum, panicking with the error
      in error state. */
  function First(v: Value): (r: Outcome<Option<Dyn>>)
    requires Wf(v)
    ensures IsErr(v.dataID) ==> r == Fail(Propagated(Error(v).value))
    ensures !IsErr(v.dataID) ==>
      (r.Ok? <==> FirstErr(v).Ok?) && (r.Ok? ==> r.value == FirstErr(v).value.0)
  {
    match FirstErr(v)
    case Fail(p) => Fail(p)
    case Ok((d, err)) => if err.Some? then Fail(Propagated(err.value)) else Ok(d)
  }

  /** `All` (value.go:46-55): `AllErr`'s data, panicking with the error in
      error state. */
  function All(v: Value): (r: Outcome<seq<Option<Dyn>>>)
    requires Wf(v)
    ensures r.Fail? <==> IsErr(v.dataID)
    ensures r.Fail? ==> r.panic == Propagated(Error(v).value)
    ensures r.Ok? ==> r.value == AllErr(v).0
  {
    var (ds, err) := AllErr(v);
    if err.Some? then Fail(Propagated(err.value)) else Ok(ds)
  }

  /** `newData` (value.go:80-82): the tuple with its data signature. */
  function NewData(fnT: Option<Ty>, data: seq<RVal>, c: Caches): (r: (Value, Caches))
    requires forall i :: 0 <= i < |data| ==> !data[i].Zero?
    ensures Wf(r.0) && !IsErr(r.0.dataID)
    ensures |r.0.dataErr| == |data|
    ensures RecordedTypes(r.0.dataErr) == RecordedTypes(data)
    ensures forall i :: 0 <= i < |data| ==> Unwrap(r.0.dataErr[i]) == Unwrap(data[i])
    ensures !(fnT.Some? && StaticFnID(fnT.value) in c.typeMap) ==>
      forall i :: 0 <= i < |data| ==> r.0.dataErr[i] == Unwrap(data[i])
    ensures r.0.dataID in r.1.typeMap
  {
    var t := DataToTypeID(fnT, data, c);
    (Value(t.1, t.0), t.2)
  }

  /** `newError` (value.go:84-87), with the error id of `errToTypeID`. */
  function NewError(err: Dyn, c: Caches): (r: (Value, Caches))
    requires IsErrorType(err.ty)
    ensures Wf(r.0) && Error(r.0) == Some(err)
    ensures r.0.dataID == ErrorID(err.ty)
    ensures r.0.dataID in r.1.typeMap
  {
    var (id, c') := ErrToTypeID([Plain(err)], c);
    (Value([Plain(err)], id), c')
  }

  /** `valueOfNilInterface`: what `Data` stores for an untyped nil argument. */
  const NilInterface: RVal := Boxed(AnyTy, None)

  /** `reflect.ValueOf` of one `interface{}` argument to `Data`, an untyped
      nil becoming the nil-interface marker (value.go:103-108). */
  function ArgValue(a: Option<Dyn>): (r: RVal)
    ensures !r.Zero?
    ensures a.None? ==> r == NilInterface
    ensures a.Some? ==> r == Plain(a.value)
  {
    if a.Some? then Plain(a.value) else NilInterface
  }

  /** The argument values of `Data`, in order. */
  function ArgValues(args: seq<Option<Dyn>>): (vals: seq<RVal>)
    ensures |vals| == |args|
    ensures forall i :: 0 <= i < |args| ==> vals[i] == ArgValue(args[i]) && !vals[i].Zero?
  {
    seq(|args|, i requires 0 <= i < |args| => ArgValue(args[i]))
  }

  /** `Data` (value.go:99-111): a non-error value with one slot per argument,
      in order. */
  function Data(args: seq<Option<Dyn>>, c: Caches): (r: (Value, Caches))
    ensures Wf(r.0) && !IsErr(r.0.dataID) && Error(r.0).None?
    ensures |r.0.dataErr| == |args|
    ensures forall i :: 0 <= i < |args| ==> r.0.dataErr[i] == ArgValue(args[i])
  {
    var vals := ArgValues(args);
    var r := NewData(None, vals, c);
    assert forall i :: 0 <= i < |args| ==> r.0.dataErr[i] == Unwrap(vals[i]);
    r
  }

  /** The `interface{}` a caller gets back for an argument of `Data`: nil for
      nil and for a nil of a nillable kind, the argument otherwise. */
  function AsInterface(a: Option<Dyn>): Option<Dyn> {
    if a.Some? && Nillable(KindOfTy(a.value.ty)) && a.value.isNil then None else a
  }

  /** `Data` then `AllErr` gives the arguments back, in order, with nils of
      nillable kinds read as nil, and no error. */
  lemma DataAllRoundTrip(args: seq<Option<Dyn>>, c: Caches)
    ensures var v := Data(args, c).0;
      |AllErr(v).0| == |args| && AllErr(v).1.None?
      && forall i :: 0 <= i < |args| ==> AllErr(v).0[i] == AsInterface(args[i])
  {
    var v := Data(args, c).0;
    forall i | 0 <= i < |args|
      ensures AllErr(v).0[i] == AsInterface(args[i])
    {
      assert AllErr(v).0[i] == Datum(v.dataErr[i]);
      ArgReadBack(args[i]);
    }
  }

  /** One argument of `Data`, read back as an `interface{}`. */
  lemma ArgReadBack(a: Option<Dyn>)
    ensures Datum(ArgValue(a)) == AsInterface(a)
  {
  }

  /** `Error` (value.go:113-121), the constructor: nil gives `Data()`, an error
      gives a value in error state holding it. */
  function ErrorOf(err: Option<Dyn>, c: Caches): (r: (Value, Caches))
    requires err.Some? ==> IsErrorType(err.value.ty)
    ensures Wf(r.0)
    ensures Error(r.0) == err
    ensures err.None? ==> r == Data([], c)
  {
    if err.None? then Data([], c) else NewError(err.value, c)
  }

  /** An error value answers every accessor with its error. */
  lemma ErrorValueAccessors(e: Dyn, c: Caches)
    requires IsErrorType(e.ty)
    ensures var v := ErrorOf(Some(e), c).0;
      && IsErr(v.dataID)
      && FirstErr(v) == Ok((None, Some(e)))
      && AllErr(v) == ([], Some(e))
      && First(v) == Fail(Propagated(e))
      && All(v) == Fail(Propagated(e))
  {
  }

  /** `Error(nil)` is the empty non-error value: no data, no error, and its
      first datum cannot be read. */
  lemma NilErrorIsEmptyData(c: Caches)
    ensures var v := ErrorOf(None, c).0;
      && !IsErr(v.dataID) && v.dataErr == []
      && AllErr(v) == ([], None) && All(v) == Ok([])
      && FirstErr(v) == Fail(IndexOutOfRange)
  {
  }

  /** `retDataToValue` (switch.go:140-149) building `Value`s: a returned
      non-nil `error` becomes an error value holding it, everything else data
      under the handler's signature. */
  function RetDataToValue(fnT: Ty, results: seq<RVal>, c: Caches): (r: (Value, Caches))
    requires fnT.FuncTy? && Conforms(fnT.outs, results)
    ensures Wf(r.0)
    ensures IsErr(r.0.dataID) <==> RetData(fnT, results).ErrorResult?
    ensures IsErr(r.0.dataID) ==> Error(r.0) == Some(RetData(fnT, results).err)
    ensures IsErr(r.0.dataID) ==> r.0.dataID == ErrorID(RetData(fnT, results).err.ty)
    ensures r.0.dataID in r.1.typeMap
    ensures !IsErr(r.0.dataID) ==> |r.0.dataErr| == |RetData(fnT, results).slots|
    ensures !IsErr(r.0.dataID) ==> RecordedTypes(r.0.dataErr) == RecordedTypes(RetData(fnT, results).slots)
    ensures !IsErr(r.0.dataID) ==> forall i :: 0 <= i < |r.0.dataErr| ==>
      Unwrap(r.0.dataErr[i]) == Unwrap(RetData(fnT, results).slots[i])
  {
    match RetData(fnT, results)
    case ErrorResult(e) => NewError(e, c)
    case DataResult(slots) =>
      assert forall i :: 0 <= i < |slots| ==> !slots[i].Zero? by {
        forall i | 0 <= i < |slots| ensures !slots[i].Zero? {
          assert SlotConforms(DataOuts(fnT)[i], slots[i]);
        }
      }
      NewData(Some(fnT), slots, c)
  }

  /** `Do` (value.go:89-97): calls a niladic function and wraps its results.
      `reflect.Value.Call` panics on a non-function and on a function that
      needs arguments. */
  function Do(h: Handler, c: Caches): (r: Outcome<(Value, Caches)>)
    requires WellBehaved(h)
    ensures r.Fail? <==> !h.ty.FuncTy? || |FixedParams(h.ty)| > 0
    ensures !h.ty.FuncTy? ==> r == Fail(NotAFunction)
    ensures r.Ok? ==> Wf(r.value.0)
    ensures r.Ok? ==> (IsErr(r.value.0.dataID) <==> RetData(h.ty, h.call([])).ErrorResult?)
    ensures r.Ok? && IsErr(r.value.0.dataID) ==> Error(r.value.0) == Some(RetData(h.ty, h.call([])).err)
    ensures r.Ok? && !IsErr(r.value.0.dataID) ==>
      && |r.value.0.dataErr| == |RetData(h.ty, h.call([])).slots|
      && RecordedTypes(r.value.0.dataErr) == RecordedTypes(RetData(h.ty, h.call([])).slots)
      && forall i :: 0 <= i < |r.value.0.dataErr| ==>
        Unwrap(r.value.0.dataErr[i]) == Unwrap(RetData(h.ty, h.call([])).slots[i])
  {
    if !h.ty.FuncTy? then Fail(NotAFunction)
    else if |FixedParams(h.ty)| > 0 then Fail(BadCall)
    else Ok(RetDataToValue(h.ty, h.call([]), c))
  }

  /** `Do` wraps results through the corrected reading of `retDataToValue`:
      a niladic function without results gives empty data, where the code as
      written panics at `Out(-1)`. */
  lemma DoWithoutResults(h: Handler, c: Caches)
    requires WellBehaved(h) && h.ty.FuncTy? && |FixedParams(h.ty)| == 0 && h.ty.outs == []
    ensures RetDataAsWritten(h.ty, h.call([])) == Fail(IndexOutOfRange)
    ensures Do(h, c).Ok? && !IsErr(Do(h, c).value.0.dataID) && Do(h, c).value.0.dataErr == []
  {
    assert Conforms(h.ty.outs, h.call([]));
  }

  /** All candidates behave as their types say. */
  ghost predicate AllWellBehaved(hs: seq<Handler>) {
    forall i :: 0 <= i < |hs| ==> WellBehaved(hs[i])
  }

  /** `S` (switch.go:118-126): tries the candidates in order, panicking at the
      first one that is not a function; the first whose cached decision is a
      match is called and its results wrapped; with no match the receiver
      itself comes back. */
  function S(v: Value, hs: seq<Handler>, c: Caches): (r: Outcome<(Value, Caches)>)
    requires Wf(v) && AllWellBehaved(hs)
    ensures r.Ok? ==> Wf(r.value.0)
    ensures hs == [] ==> r == Ok((v, c))
    decreases |hs|
  {
    if |hs| == 0 then Ok((v, c))
    else
      match Callable(hs[0])
      case Fail(p) => Fail(p)
      case Ok(fnT) =>
        assert WellBehaved(hs[0]);
        var (m, c1) := CachedMatch(c, v.dataID, fnT);
        if m then Ok(RetDataToValue(fnT, hs[0].call(v.dataErr), c1))
        else S(v, hs[1..], c1)
  }

  // ---------------------------------------------------------------------
  // The cache-free reference dispatcher, and the transparency theorem.

  /** The type list a value's signature stands for. */
  function ValueTypes(v: Value): seq<Option<Ty>> {
    RecordedTypes(v.dataErr)
  }

  /** The value `retDataToValue` builds, computed without any cache. */
  function PureRet(fnT: Ty, results: seq<RVal>): (v: Value)
    requires fnT.FuncTy? && Conforms(fnT.outs, results)
    ensures Wf(v)
  {
    match RetData(fnT, results)
    case ErrorResult(e) => Value([Plain(e)], ErrorID(e.ty))
    case DataResult(slots) =>
      assert forall i :: 0 <= i < |slots| ==> !slots[i].Zero? by {
        forall i | 0 <= i < |slots| ensures !slots[i].Zero? {
          assert SlotConforms(DataOuts(fnT)[i], slots[i]);
        }
      }
      var id := if !HasInterfaceSlot(slots) then StaticFnID(fnT) else DataID(TypesCode(RecordedTypes(slots)));
      Value(seq(|slots|, i requires 0 <= i < |slots| => Unwrap(slots[i])), id)
  }

  /** The dispatcher with every decision made directly by the pure matcher on
      the value's own types. */
  function PureS(v: Value, hs: seq<Handler>): (r: Outcome<Value>)
    requires AllWellBehaved(hs)
    ensures r.Ok? && Wf(v) ==> Wf(r.value)
    decreases |hs|
  {
    if |hs| == 0 then Ok(v)
    else
      match Callable(hs[0])
      case Fail(p) => Fail(p)
      case Ok(fnT) =>
        assert WellBehaved(hs[0]);
        if Decide(v.dataID, fnT, ValueTypes(v)) then Ok(PureRet(fnT, hs[0].call(v.dataErr)))
        else PureS(v, hs[1..])
  }

  /** The value part of a dispatch outcome. */
  function ValuePart(o: Outcome<(Value, Caches)>): Outcome<Value> {
    match o
    case Ok((v, _)) => Ok(v)
    case Fail(p) => Fail(p)
  }

  /** The caches hold the value's own type list under its signature. */
  ghost predicate Recorded(c: Caches, v: Value) {
    v.dataID in c.typeMap && c.typeMap[v.dataID] == ValueTypes(v)
  }

  /** Unwrapping a tuple without interface-kind slots changes nothing. */
  lemma UnwrapConcrete(slots: seq<RVal>)
    requires !HasInterfaceSlot(slots)
    ensures seq(|slots|, i requires 0 <= i < |slots| => Unwrap(slots[i])) == slots
  {
    var u := seq(|slots|, i requires 0 <= i < |slots| => Unwrap(slots[i]));
    forall i | 0 <= i < |slots| ensures u[i] == slots[i] {
      assert !slots[i].Boxed?;
    }
  }

  /** On sound caches `retDataToValue` builds the cache-free value and keeps
      the caches sound. */
  lemma RetDataToValuePure(fnT: Ty, results: seq<RVal>, c: Caches)
    requires fnT.FuncTy? && Conforms(fnT.outs, results) && Sound(c)
    ensures RetDataToValue(fnT, results, c).0 == PureRet(fnT, results)
    ensures Sound(RetDataToValue(fnT, results, c).1)
  {
    match RetData(fnT, results)
    case ErrorResult(e) =>
      ErrToTypeIDSound([Plain(e)], c);
    case DataResult(slots) =>
      DataToTypeIDSound(Some(fnT), slots, c);
      StaticResultsRecorded(fnT, slots);
      if StaticFnID(fnT) in c.typeMap {
        assert RecordedFor(StaticFnID(fnT), c.typeMap[StaticFnID(fnT)]);
        UnwrapConcrete(slots);
      }
  }

  /** One step of `S`: a function candidate is called when the cached
      decision says so, otherwise the rest are tried with the updated caches;
      the cache-free dispatcher steps alike on its own decision. */
  lemma SUnfold(v: Value, hs: seq<Handler>, c: Caches)
    requires Wf(v) && AllWellBehaved(hs) && |hs| > 0 && hs[0].ty.FuncTy?
    ensures WellBehaved(hs[0]) && WfFunc(hs[0].ty) && AllWellBehaved(hs[1..])
    ensures var (m, c1) := CachedMatch(c, v.dataID, hs[0].ty);
      && (m ==> S(v, hs, c) == Ok(RetDataToValue(hs[0].ty, hs[0].call(v.dataErr), c1)))
      && (!m ==> S(v, hs, c) == S(v, hs[1..], c1))
    ensures Decide(v.dataID, hs[0].ty, ValueTypes(v)) ==> PureS(v, hs) == Ok(PureRet(hs[0].ty, hs[0].call(v.dataErr)))
    ensures !Decide(v.dataID, hs[0].ty, ValueTypes(v)) ==> PureS(v, hs) == PureS(v, hs[1..])
  {
    assert WellBehaved(hs[0]);
  }

  /** Cache transparency of `S`: on sound caches holding the receiver's own
      type list, the switch returns exactly what the cache-free dispatcher
      returns (the same handler chosen, the same value built, the same panic),
      and the caches stay sound. */
  lemma {:induction false} STransparent(v: Value, hs: seq<Handler>, c: Caches)
    requires Wf(v) && AllWellBehaved(hs)
    requires Sound(c) && Recorded(c, v)
    ensures ValuePart(S(v, hs, c)) == PureS(v, hs)
    ensures S(v, hs, c).Ok? ==> Sound(S(v, hs, c).value.1)
    decreases |hs|
  {
    if |hs| > 0 && hs[0].ty.FuncTy? {
      SUnfold(v, hs, c);
      var fnT := hs[0].ty;
      CachedMatchTransparent(c, v.dataID, fnT);
      var (m, c1) := CachedMatch(c, v.dataID, fnT);
      assert Recorded(c1, v);
      if m {
        RetDataToValuePure(fnT, hs[0].call(v.dataErr), c1);
      } else {
        STransparent(v, hs[1..], c1);
      }
    }
  }

  /** The caches hold, under the value's signature, its own type list or one
      with the same data code. */
  ghost predicate RecordedUpToCode(c: Caches, v: Value) {
    && v.dataID in c.typeMap
    && (c.typeMap[v.dataID] == ValueTypes(v)
        || (v.dataID.DataID? && TypesCode(c.typeMap[v.dataID]) == TypesCode(ValueTypes(v))))
  }

  /** The value `retDataToValue` builds is recorded under its signature, up to
      a code collision, and the caches stay sound. */
  lemma RetDataToValueRecorded(fnT: Ty, results: seq<RVal>, c: Caches)
    requires fnT.FuncTy? && Conforms(fnT.outs, results) && Sound(c)
    ensures Sound(RetDataToValue(fnT, results, c).1)
    ensures RecordedUpToCode(RetDataToValue(fnT, results, c).1, RetDataToValue(fnT, results, c).0)
  {
    match RetData(fnT, results)
    case ErrorResult(e) =>
      ErrToTypeIDSound([Plain(e)], c);
    case DataResult(slots) =>
      DataToTypeIDSound(Some(fnT), slots, c);
      var t := DataToTypeID(Some(fnT), slots, c);
      assert t.0 in c.typeMap ==> t.2.typeMap[t.0] == c.typeMap[t.0];
  }

  /** A switch on a recorded value returns a value recorded in the caches it
      returns, up to a code collision, with the caches still sound: a chain of
      switches keeps the conditions of `STransparent` as long as no data code
      collides. */
  lemma {:induction false} SResultRecorded(v: Value, hs: seq<Handler>, c: Caches)
    requires Wf(v) && AllWellBehaved(hs)
    requires Sound(c) && Recorded(c, v)
    ensures S(v, hs, c).Ok? ==> Sound(S(v, hs, c).value.1) && RecordedUpToCode(S(v, hs, c).value.1, S(v, hs, c).value.0)
    decreases |hs|
  {
    if |hs| > 0 && hs[0].ty.FuncTy? {
      SUnfold(v, hs, c);
      var fnT := hs[0].ty;
      CachedMatchTransparent(c, v.dataID, fnT);
      var (m, c1) := CachedMatch(c, v.dataID, fnT);
      assert Recorded(c1, v);
      if m {
        RetDataToValueRecorded(fnT, hs[0].call(v.dataErr), c1);
      } else {
        SResultRecorded(v, hs[1..], c1);
      }
    }
  }

  /** First match wins: when candidate k is the first that matches, every
      earlier one being a function that does not, the switch returns what
      candidate k's results make, whatever the later candidates are. */
  lemma {:induction false} PureSelectsFirst(v: Value, hs: seq<Handler>, k: nat)
    requires AllWellBehaved(hs) && k < |hs|
    requires forall j :: 0 <= j <= k ==> hs[j].ty.FuncTy? && WfFunc(hs[j].ty)
    requires forall j :: 0 <= j < k ==> !Decide(v.dataID, hs[j].ty, ValueTypes(v))
    requires Decide(v.dataID, hs[k].ty, ValueTypes(v))
    ensures WellBehaved(hs[k])
    ensures PureS(v, hs) == Ok(PureRet(hs[k].ty, hs[k].call(v.dataErr)))
    decreases k
  {
    assert WellBehaved(hs[k]);
    if k > 0 {
      assert AllWellBehaved(hs[1..]);
      PureSelectsFirst(v, hs[1..], k - 1);
    }
  }

  /** No match, no change: when every candidate is a function that does not
      match, the switch returns the receiver itself. */
  lemma {:induction false} PureNoMatch(v: Value, hs: seq<Handler>)
    requires AllWellBehaved(hs)
    requires forall j :: 0 <= j < |hs| ==> hs[j].ty.FuncTy? && WfFunc(hs[j].ty)
    requires forall j :: 0 <= j < |hs| ==> !Decide(v.dataID, hs[j].ty, ValueTypes(v))
    ensures PureS(v, hs) == Ok(v)
    decreases |hs|
  {
    if |hs| > 0 {
      assert AllWellBehaved(hs[1..]);
      PureNoMatch(v, hs[1..]);
    }
  }

  /** A candidate that is not a function panics the switch when reached. */
  lemma {:induction false} PureNotAFunction(v: Value, hs: seq<Handler>, k: nat)
    requires AllWellBehaved(hs) && k < |hs|
    requires forall j :: 0 <= j < k ==> hs[j].ty.FuncTy? && WfFunc(hs[j].ty)
    requires forall j :: 0 <= j < k ==> !Decide(v.dataID, hs[j].ty, ValueTypes(v))
    requires !hs[k].ty.FuncTy?
    ensures PureS(v, hs) == Fail(NotAFunction)
    decreases k
  {
    if k > 0 {
      assert AllWellBehaved(hs[1..]);
      PureNotAFunction(v, hs[1..], k - 1);
    }
  }

  /** A value in error state is only ever caught by a single-parameter
      handler whose parameter implements `error` and accepts the error's type. */
  lemma ErrorStateDecision(v: Value, fnT: Ty)
    requires Wf(v) && IsErr(v.dataID) && WfFunc(fnT)
    ensures Decide(v.dataID, fnT, ValueTypes(v)) <==>
      |fnT.ins| == 1 && IsErrorType(fnT.ins[0]) && AssignableTo(v.dataErr[0].d.ty, fnT.ins[0])
  {
    assert ValueTypes(v) == [Some(v.dataErr[0].d.ty)];
  }

  /** An error value is recorded under its signature in the caches `Error`
      returns, and sound caches stay sound. */
  lemma ErrorOfRecorded(e: Dyn, c: Caches)
    requires Sound(c) && IsErrorType(e.ty)
    ensures Sound(ErrorOf(Some(e), c).1) && Recorded(ErrorOf(Some(e), c).1, ErrorOf(Some(e), c).0)
  {
    ErrToTypeIDSound([Plain(e)], c);
  }

  /** A `Data` value is recorded under its signature in the caches it returns,
      unless an earlier tuple of other types wrote the same code first; sound
      caches stay sound. */
  lemma DataRecorded(args: seq<Option<Dyn>>, c: Caches)
    requires Sound(c)
    ensures var r := Data(args, c);
      && Sound(r.1)
      && (Recorded(r.1, r.0) || (r.0.dataID in c.typeMap && TypesCode(c.typeMap[r.0.dataID]) == TypesCode(ValueTypes(r.0))))
  {
    DataToTypeIDSound(None, ArgValues(args), c);
  }
}
